=== FILE: README.md ===
# Spatial alert prototype: a Dafny model of the analytics and inference core

The system watches a stream of geolocated incident alerts. It keeps them in
an in-memory frame and serves a dashboard. The dashboard can list and look
up alerts, cluster hotspots with DBSCAN, estimate density with a kernel
density estimate, classify a record's severity, score its risk and flag
anomalies. Each newly ingested alert that the anomaly detector flags is
broadcast as a GeoJSON Feature.

This project models the deterministic logic around the opaque machine-learning
calls:

- **Feature engineering** (`Timestamps`, `Features`, `Training`). The inference
  path (`features_from_record`) parses the timestamp into a calendar date-time.
  It takes hour and month, and bins latitude and longitude with Python's
  `int(x * 10)`, which truncates toward zero. The training path
  (`make_features`) cuts characters 11..13 and 5..7 out of the timestamp text,
  converts them with `int()`, and bins with numpy's `astype(int)`. The central
  result is train/infer parity: for every record whose timestamp has the
  `YYYY-MM-DD HH:MM:SS` layout (or `T` in place of the space) and names a real
  instant, and which has both coordinates, both paths give the same
  `(hour, month, lat_bin, lon_bin)` vector.
- **Inference** (`Predict`). The classifier, the regressor and the isolation
  forest are function parameters over the feature vector. The model covers
  the severity label list and its inverse training map, the `== -1` anomaly
  test, and Python's list indexing, including negative indices.
- **Cluster summarisation** (`Clustering`). The DBSCAN neighbourhood search is
  a function parameter that labels every point. The model covers the
  km→radian radius conversion and the ascending non-noise cluster ids. It also
  covers each cluster's member count and its mean centroid, written as a
  GeoJSON Point in (longitude, latitude) order. python-geojson rounds every
  Point coordinate to six decimals (`Alerts.Round6`), both here and in the
  anomaly broadcast.
- **The service** (`Backend`). This is a state machine over the alert frame
  and the log of broadcasts. It covers listing newest-first with pandas'
  `head(n)`, lookup by identifier (first match), the cluster and KDE
  endpoints, the predict/anomaly endpoints with their empty-body guard, and
  ingest. Ingest appends first, then checks for an anomaly, then broadcasts
  at most once. The state remembers how many rows came from the CSV. Those
  rows hold parsed date-times; rows appended by ingest keep the request's
  timestamp string.

Behaviour of the code worth stating explicitly:

- Bins truncate toward zero (`int()`): longitude -87.62 gives bin -876, not -877.
- Ingest does not validate the record before appending it (backend/__init__.py:123
  runs before line 126). A record without a latitude is stored, and then the
  request fails with 500. `RecordWithoutLatitudeIsStored` states this.
- Nothing enforces alert identifier uniqueness. Lookup returns the first matching row.
- After the first ingest of a record with a timestamp, `/alerts` fails with 500
  for good (see Findings).
- The code does not check empty input or degenerate clustering and density
  parameters itself; the library called behind the scenes rejects them. The
  model gives that library an explicit "rejected" outcome, and the endpoint
  answers 500.
- A broadcast is an entry appended to the service's emission log; delivery to
  subscribers is not modelled.

Modules: `Wrappers` (Option/Result), `Timestamps`, `Alerts` (the record, coordinates,
GeoJSON Point), `Features`, `Training`, `Predict`, `Clustering`, `Backend`.

## Model

| member | source | states |
|---|---|---|
| `Timestamps.ParseTimestamp` | ml_services/predict.py:10 | Parsing succeeds exactly when the text has the `YYYY-MM-DD HH:MM:SS` layout and names an existing calendar instant. A success always has hour 0..23, month 1..12 and a day that exists in that month. |
| `Timestamps.SlicedFieldsAgreeWithParse` | ml_services/train_models.py:14-15 | For every timestamp the parser accepts, `int()` of characters 11..13 is the parsed hour and `int()` of characters 5..7 is the parsed month. |
| `Timestamps.FormatThenParse` | data_simulation/simulate_alerts.py:33 | Every valid date-time the simulator writes has the layout and parses back to itself. |
| `Timestamps.ParseThenFormat` | data_simulation/simulate_alerts.py:33 | Every parseable timestamp with a space separator is exactly the simulator's text for its date-time, so the layout and the date-times correspond one to one. |
| `Timestamps.ExampleTimestamp` | tests/test_predict.py:6 | "2025-01-08 12:34:56" parses to 2025-01-08 12:34:56, and both paths give hour 12 and month 1. |
| `Timestamps.SlicingDoesNotValidate` | ml_services/train_models.py:15 | The training slice checks no ranges: month "13" is sliced to 13, but the parser rejects the timestamp. |
| `Features.TruncateToInt` | ml_services/predict.py:14-15 | `int()` of a float keeps the sign of x and satisfies abs(n) <= abs(x) < abs(n) + 1. |
| `Features.TruncationIsUnique` | ml_services/predict.py:14-15 | Those three bounds determine the integer: any integer meeting them is the truncation. |
| `Features.CastAgreesWithTruncate` | ml_services/train_models.py:16-17 | numpy's `astype(int)` (floor, plus one for negative fractions) equals Python's `int()` on every value, so the training and inference bins coincide. |
| `Features.BinExamples` | ml_services/predict.py:14-15 | -87.62 falls in bin -876 (not -877), 41.9 in bin 419, and -0.05 in bin 0. |
| `Features.FeaturesFromRecord` | ml_services/predict.py:9-16 | A feature vector exists exactly when the timestamp is present and parseable and both coordinates are present. Its hour is in 0..23 and its month in 1..12. A missing timestamp is reported before a missing latitude. |
| `Features.FeaturesIgnoreOtherFields` | ml_services/predict.py:9-16 | Records that agree on timestamp, latitude and longitude get the same features, so extraction is deterministic and ignores identifier, type, severity and extra keys. |
| `Training.MakeFeatures` | ml_services/train_models.py:12-20 | The column-wise computation succeeds exactly when every row converts on its own. X and y have one entry per input row. X's i-th row is that row's stand-alone training vector, y is the severity map of each row, and a failing hour column is the error reported. |
| `Training.SeverityOrdinal` | ml_services/train_models.py:19 | The training label is defined exactly for "Low", "Medium", "High" and "Critical", and is then 0..3; any other or missing severity has no label. |
| `Timestamps.PyInt` | ml_services/train_models.py:14-15 | `int()` of the empty string fails; a string of decimal digits converts to the number it writes, and with a leading minus to its negation. |
| `Timestamps.SlicedHour` | ml_services/train_models.py:14 | On a timestamp in the layout, `int()` of characters 11..13 is the two-digit hour field. |
| `Timestamps.SlicedMonth` | ml_services/train_models.py:15 | On a timestamp in the layout, `int()` of characters 5..7 is the two-digit month field. |
| `Timestamps.FormatTimestamp` | data_simulation/simulate_alerts.py:33 | `isoformat(sep=" ", timespec="seconds")` writes 19 characters with a space at position 10, in the parser's layout, and its fields read back as the date-time written. |
| `Features.CastToInt` | ml_services/train_models.py:16-17 | numpy's `astype(int)` is the floor of a non-negative value and minus the floor of the magnitude of a negative one, i.e. it rounds toward zero. |
| `Features.Bin` | ml_services/predict.py:14-15 | The 0.1-degree bin of x has the sign of x and satisfies abs(n) <= abs(10x) < abs(n) + 1. |
| `Alerts.GeoPoint` | ml_services/clustering.py:26 | A GeoJSON Point has two coordinates, each within half a millionth of the given longitude and latitude. |
| `Backend.EmptyBody` | backend/__init__.py:96 | A missing JSON body and an empty object are both rejected with 400 by the predict, anomaly and ingest endpoints. |
| `Clustering.Summary` | ml_services/clustering.py:24-31 | The feature for cluster c carries c, the number of points labelled c, and the rounded mean of their coordinates as a (longitude, latitude) Point. |
| `Training.RowParity` | ml_services/train_models.py:14-17 | For one record whose timestamp has the `YYYY-MM-DD HH:MM:SS` layout and names a real instant, and which has both coordinates, the training path yields the identical feature vector. |
| `Training.TrainInferParity` | ml_services/train_models.py:12-20 | For a frame whose every record has a timestamp in the `YYYY-MM-DD HH:MM:SS` layout naming a real instant and both coordinates, `make_features` succeeds and its row i equals `features_from_record` of row i. |
| `Training.SimulatedRecordParity` | ml_services/predict.py:9-16 | A record whose timestamp the simulator wrote gives the date-time's hour and month and the truncated bins, on both paths. |
| `Predict.LabelAt` | ml_services/predict.py:21 | Indexing the label list succeeds exactly for ordinals -4..3. The result is one of the four labels, and the training map sends it back to the ordinal mod 4. |
| `Predict.Classify` | ml_services/predict.py:18-21 | A feature failure propagates as the error. Every success is one of the four labels. When the classifier's ordinal is in 0..3, the label maps back to that ordinal. |
| `Predict.RiskScore` | ml_services/predict.py:23-25 | Succeeds exactly when features exist, and then returns the regressor's value on them. |
| `Predict.IsAnomaly` | ml_services/predict.py:27-29 | Succeeds exactly when features exist. The flag is true if and only if the detector outputs -1. |
| `Predict.SeverityCodecInverse` | ml_services/train_models.py:19 | The training map sends the i-th label of the inference list to i, and any string with an ordinal is the list entry at that ordinal. |
| `Predict.SeverityLabelsDistinct` | ml_services/predict.py:21 | The four labels are pairwise distinct. |
| `Predict.PredictionsIgnoreOtherFields` | ml_services/predict.py:18-29 | Only timestamp, latitude and longitude influence the classification, the risk score and the anomaly flag. |
| `Alerts.RoundHalfEven` | ml_services/clustering.py:26 | Python's round() lands within one half of its argument, and on the even integer when exactly halfway. |
| `Alerts.RoundingIsUnique` | ml_services/clustering.py:26 | Those two conditions pick out a single integer, so they define the rounding. |
| `Alerts.Round6` | ml_services/clustering.py:26 | A coordinate written by geojson.Point is a whole number of millionths within half a millionth of the value. |
| `Alerts.Round6Monotone` | ml_services/clustering.py:26 | Rounding to six decimals never reverses the order of two values. |
| `Alerts.Round6Idempotent` | backend/__init__.py:128 | Rounding a rounded coordinate again leaves it unchanged. |
| `Alerts.CoordsOf` | ml_services/clustering.py:12 | The coordinate matrix exists exactly when no row lacks a coordinate, and then has one (latitude, longitude) pair per row in row order. |
| `Clustering.EpsRadians` | ml_services/clustering.py:11-13 | The radius in radians times 6371.0088 is the radius in kilometres. |
| `Clustering.Count` | ml_services/clustering.py:29 | A cluster's size is positive exactly when the label occurs. |
| `Clustering.MemberIndices` | ml_services/clustering.py:22 | The selected row indices are strictly ascending, each carries the label, every row with the label is among them, and there are as many as rows with the label. |
| `Clustering.Members` | ml_services/clustering.py:22 | The selected subset is exactly the points of the rows carrying the label, each once and in row order; its size is the label's count. |
| `Clustering.ClusterIds` | ml_services/clustering.py:21 | The ids are strictly ascending (so distinct), and an id appears exactly when it is a label other than -1. |
| `Clustering.Summarise` | ml_services/clustering.py:21-31 | There is one Feature per non-noise label, in strictly ascending id order, and none has id -1. Each count equals the number of rows with that label. Each Point is [mean longitude, mean latitude] of its members, each rounded to six decimals. |
| `Clustering.RunDbscan` | ml_services/clustering.py:6-33 | DBSCAN is called on the radian coordinates with radius eps_km / 6371.0088. The returned labels are DBSCAN's labels unchanged, one per input row, and the Features are the summaries of exactly that labelling. |
| `Clustering.CountsPartitionPoints` | ml_services/clustering.py:21-29 | The sum of all clusters' counts plus the number of -1 labels equals the number of rows. |
| `Clustering.MeanBetween` | ml_services/clustering.py:23 | A mean lies between the smallest and the largest value it averages. |
| `Clustering.CentroidWithinMembers` | ml_services/clustering.py:23-26 | Every centroid has two coordinates, longitude first. Each lies within half a millionth of its members' mean on that axis, and between the rounded smallest and rounded largest member value. |
| `Clustering.OneClusterAndAnOutlier` | ml_services/clustering.py:21-31 | Labels [0, 0, 0, -1] give exactly one summary: cluster 0 with three members. |
| `Backend.InsertByTime` | backend/__init__.py:34 | Inserting into a newest-first sequence keeps it newest-first and adds exactly that alert. |
| `Backend.SortNewestFirst` | backend/__init__.py:34 | The sort result is newest-first (missing times last) and a permutation of the frame. |
| `Backend.Head` | backend/__init__.py:35 | `head(n)` is a prefix with min(n, size) rows for n >= 0 and with size + n rows (at least 0) for negative n. |
| `Backend.ListAlertsParsed` | backend/__init__.py:29-38 | When the timestamp column holds one kind of value, the reply is always 200. With the limit n (100 by default), it has min(n, size) rows for n >= 0 and size + n rows (at least 0) for negative n. The rows are newest first and drawn from the frame, and no row left out is newer than a row returned. |
| `Backend.ListAlerts` | backend/__init__.py:29-38 | 500 exactly when the timestamp column mixes start-up date-times with strings appended by ingest. Otherwise 200, with min(n, size) rows for n >= 0 and size + n rows (at least 0) for negative n. The rows are newest first and drawn from the frame, and no row left out is newer than a row returned. |
| `Backend.IngestKeepsColumnMixed` | backend/__init__.py:122-123 | Once the column is mixed, every later ingest leaves it mixed. |
| `Backend.ListingFailsAfterIngest` | backend/__init__.py:24-38 | For a start-up frame whose timestamps parsed and which has one, listing answers 200, and after ingesting any record with a timestamp it answers 500. |
| `Backend.ListingStaysBroken` | backend/__init__.py:29-38 | After the column becomes mixed, listing answers 500 after any further sequence of ingests. |
| `Backend.GetAlert` | backend/__init__.py:40-45 | 404 exactly when the id is negative (the unsigned integer route does not match it) or no row has the identifier. Otherwise 200 with the row at the first index that has that identifier. |
| `Backend.Clusters` | backend/__init__.py:64-69 | A missing coordinate gives 500. Otherwise the reply is 200 exactly when clustering with the query's or default parameters (2.0 km, 10) succeeds, and carries its Features. |
| `Backend.KdeBandwidth` | backend/__init__.py:78 | The bandwidth the code passes, bw_km / 111, times 111 is bw_km: an angle in degrees of arc. |
| `Backend.BandwidthRadians` | backend/__init__.py:78 | The corrected bandwidth is bw_km at 111 km per degree, expressed in radians. |
| `Backend.KdeBandwidthIsDegrees` | backend/__init__.py:78 | Read as radians, the bandwidth the code passes is 180/pi times the intended one, so the kernel is over 57 times wider than requested. |
| `Backend.Kde` | backend/__init__.py:74-86 | A missing coordinate gives 500. Otherwise the reply is 200 exactly when the density model accepts the radian coordinates with bandwidth bw_km / 111. It then holds three arrays, each as long as the frame: every alert's latitude and longitude in frame order, and the model's densities. |
| `Backend.KdeCorrected` | backend/__init__.py:78 | A missing coordinate gives 500. Otherwise the reply is 200 exactly when the density model accepts the radian coordinates with the bandwidth converted to radians, and it then holds the same three frame-length arrays with that model's densities. |
| `Backend.PredictSeverity` | backend/__init__.py:93-103 | 400 exactly for an empty or missing body, and 200 exactly when the record classifies. A 200 carries one of the four labels, which maps back to the classifier's ordinal when that ordinal is in 0..3, and the regressor's score on the record's features. An unreadable record gives 500. |
| `Backend.PredictAnomaly` | backend/__init__.py:105-110 | 400 exactly for an empty body, and 200 exactly when features exist. The flag is the detector's -1 test. |
| `Backend.Notice` | backend/__init__.py:127-135 | The broadcast is the "anomaly" event. Its Point is [longitude, latitude], each rounded to six decimals, and it carries exactly the record's alert_id, alert_type and timestamp. |
| `Backend.Ingest` | backend/__init__.py:115-137 | An empty body gives 400 and leaves the state unchanged. Any other body is appended as the last row, earlier rows untouched. Exactly one notification is logged when the detector flags the record and its identifier and type exist, none otherwise. The reply is 200 exactly when the anomaly check ran and the notification, if any, could be built. |
| `Backend.IngestKeepsEmissionsBacked` | backend/__init__.py:122-135 | Every logged broadcast announces a stored alert that the detector flags, and ingest preserves this. |
| `Backend.ReplayAppendsOnly` | backend/__init__.py:115-137 | After any sequence of ingests, the frame has grown by one row per non-empty body and the log by one entry per flagged record. Earlier rows and entries are unchanged, and every broadcast is still backed. |
| `Backend.RecordWithoutLatitudeIsStored` | backend/__init__.py:122-126 | Any non-empty record without a latitude is appended, nothing is broadcast, and the reply is 500. |
| `Backend.FlaggedIngestBroadcastsOnce` | backend/__init__.py:126-137 | A flagged record with identifier and type yields exactly one broadcast with its alert_id, and 200. |

## Left out

- Loading the models and training them (ml_services/predict.py:4-7, ml_services/train_models.py:22-43). The three models are function parameters.
- The DBSCAN neighbourhood search and the kernel density fit (ml_services/clustering.py:13-16, backend/__init__.py:78-79). These are library internals. Each is a function parameter that returns one label or density per point, or "rejected". The empty-input and bad-parameter errors belong there.
- The 100×100 heatmap histogram (backend/__init__.py:47-57). It is floating-point numerics inside numpy.
- Floating point. Coordinates, means and divisions are exact reals, so `x * 10` is not rounded before truncation.
- Flask routing, JSON parsing of bodies and query strings, CSV reading (backend/__init__.py:24), CORS, Socket.IO delivery and backend/run.py. A query parameter is either absent or already a number. A JSON value of the wrong type in a named field (a string latitude, a numeric timestamp, null) is not modelled.
- Concurrent requests rebinding the frame. Ingests are sequential state transitions.
- The frontend and the synthetic-data generator. Only the timestamp layout the generator writes is modelled (`FormatTimestamp`).
- ParseTimestamp: accepts only the 19-character layout with a space or 'T' separator, for years 1..9999. pandas also accepts other formats, and it rejects dates outside its nanosecond range (years 1677..2262).
- PyInt: accepts ASCII whitespace, a sign and ASCII digits. Python's int() also accepts underscores between digits, non-ASCII digits and non-ASCII whitespace. Such text fits in the two-character slices: Arabic-Indic "١٢", or an EM SPACE followed by "5", converts in the program but gives None in the model, so `SlicedHour` and `SlicedMonth` fail on timestamps the program would slice successfully.
- RowParity: covers only timestamps in the 19-character layout. pandas also parses "2025-01-08" or "2025-01-08 9:05:00"; the inference path then succeeds while the training slice reads other characters or fails, and the model says nothing about those records (`TrainInferParity` likewise).
- ListAlerts: when the column is not mixed, rows are ordered by their parsed timestamp. pandas compares text instead when the CSV column stayed text, or when only ingested rows carry a timestamp. The two orders agree for timestamps in the simulator's layout, but unparseable text is not placed last. Ties are kept in frame order, whereas pandas' default quicksort does not promise an order for ties.
- Kde: the density values come from the density model, which is a function parameter.
- Round6: rounds the exact real value. Python rounds the binary float, whose decimal expansion can differ from the real value in the last places. python-geojson is not part of this model; only its default precision of six decimals is.
- Notification delivery: subscribers, fire-and-forget semantics and transport failures are outside the model. A broadcast is a log entry.

## Findings

| source | as written | input that shows it | evidently intended | confidence | as-written member | corrected member |
|---|---|---|---|---|---|---|
| backend/__init__.py:123 | Ingest appends the JSON timestamp string unconverted next to the date-times read_csv parsed, and sort_values then compares a string with a date-time (`Backend.ListingFailsAfterIngest`, `Backend.ListingStaysBroken`). | A CSV row with timestamp "2025-01-08 12:34:56", then POST /ingest of any record that has a timestamp: GET /alerts answers 500 from then on. | The ingested timestamp is converted as the CSV column was, so the listing stays newest first with status 200. | medium, not executed | `Backend.ListAlerts` | `Backend.ListAlertsParsed` |
| backend/__init__.py:78 | The bandwidth bw_km / 111 is in degrees of arc, but the haversine kernel reads it as radians (`Backend.KdeBandwidthIsDegrees`). | bw_km=1 passes 1/111, about 0.009 radians, roughly 57 km on the Earth's surface instead of 1 km. | bw_km / 111 converted to radians, as `Backend.KdeCorrected` fits with. | high, not executed | `Backend.KdeBandwidth` | `Backend.BandwidthRadians` |

=== FILE: alerts.dfy ===
/** Alert records and the geographic values built from them. */
module Alerts {
  import opened Wrappers

  /**
   * One alert, as a JSON request body or a row of the historical CSV. Every
   * named field may be absent (a missing key, an empty cell); fields with any
   * other name are kept in `extra`.
   */
  datatype Alert = Alert(
    alertId: Option<int>,
    timestamp: Option<string>,
    latitude: Option<real>,
    longitude: Option<real>,
    alertType: Option<string>,
    severity: Option<string>,
    extra: map<string, string>)
  {
    /** The JSON object has no keys at all, which Python treats as false. */
    predicate IsEmpty() {
      && alertId.None? && timestamp.None? && latitude.None? && longitude.None?
      && alertType.None? && severity.None? && extra == map[]
    }
  }

  /** A latitude/longitude pair in degrees (or radians after conversion). */
  datatype Coord = Coord(lat: real, lon: real)

  /**
   * A GeoJSON Point. Its position lists longitude first and latitude second
   * (section 3.1.1 of RFC 7946).
   */
  datatype Point = Point(coordinates: seq<real>)

  /** One millionth: python-geojson rounds every coordinate of a geometry to six decimal places. */
  const Scale: real := 1000000.0

  /**
   * Python's round() to an integer: the nearest integer to y, and the even
   * one of the two when y lies exactly halfway between them.
   */
  function RoundHalfEven(y: real): (n: int)
    ensures y - 0.5 <= n as real <= y + 0.5
    ensures (n as real == y - 0.5 || n as real == y + 0.5) ==> n % 2 == 0
  {
    var f := y.Floor;
    var d := y - f as real;
    if d < 0.5 then f
    else if d > 0.5 then f + 1
    else if f % 2 == 0 then f else f + 1
  }

  /** round(x, 6): x to the nearest multiple of one millionth, halfway cases to the even multiple. */
  function Round6(x: real): (r: real)
    ensures x - 0.5 / Scale <= r <= x + 0.5 / Scale
    ensures (r * Scale).Floor as real == r * Scale
  {
    RoundHalfEven(x * Scale) as real / Scale
  }

  /**
   * geojson.Point((lon, lat)): a Point whose coordinates are the two values
   * rounded to six decimals, longitude first.
   */
  function GeoPoint(lon: real, lat: real): (p: Point)
    ensures |p.coordinates| == 2
    ensures lon - 0.5 / Scale <= p.coordinates[0] <= lon + 0.5 / Scale
    ensures lat - 0.5 / Scale <= p.coordinates[1] <= lat + 0.5 / Scale
  {
    Point([Round6(lon), Round6(lat)])
  }

  /** The float value of pi that numpy uses for degree/radian conversion. */
  const Pi: real := 3.141592653589793

  /** numpy.radians applied to both coordinates. */
  function ToRadians(c: Coord): Coord {
    Coord(c.lat * Pi / 180.0, c.lon * Pi / 180.0)
  }

  /**
   * The two conditions of RoundHalfEven determine it: an integer within one
   * half of y, and even when exactly one half away, is the rounding of y.
   */
  lemma RoundingIsUnique(y: real, m: int)
    requires y - 0.5 <= m as real <= y + 0.5
    requires (m as real == y - 0.5 || m as real == y + 0.5) ==> m % 2 == 0
    ensures RoundHalfEven(y) == m
  {
  }

  /** Rounding never reverses the order of two values. */
  lemma RoundHalfEvenMonotone(x: real, y: real)
    requires x <= y
    ensures RoundHalfEven(x) <= RoundHalfEven(y)
  {
  }

  /** Rounding to six decimals never reverses the order of two values. */
  lemma Round6Monotone(x: real, y: real)
    requires x <= y
    ensures Round6(x) <= Round6(y)
  {
    RoundHalfEvenMonotone(x * Scale, y * Scale);
  }

  /** A value already written with six decimals is left as it is, so rounding twice is rounding once. */
  lemma Round6Idempotent(x: real)
    ensures Round6(Round6(x)) == Round6(x)
  {
    var r := Round6(x);
    var n := (r * Scale).Floor;
    RoundingIsUnique(r * Scale, n);
  }

  /** The latitude/longitude columns of a frame; a missing cell (NaN) gives None. */
  function CoordsOf(alerts: seq<Alert>): (r: Option<seq<Coord>>)
    ensures r.Some? <==> forall i :: 0 <= i < |alerts| ==> alerts[i].latitude.Some? && alerts[i].longitude.Some?
    ensures r.Some? ==> |r.value| == |alerts|
    ensures r.Some? ==> forall i :: 0 <= i < |alerts| ==>
      r.value[i] == Coord(alerts[i].latitude.value, alerts[i].longitude.value)
  {
    if |alerts| == 0 then Some([])
    else
      var a := alerts[|alerts| - 1];
      match CoordsOf(alerts[..|alerts| - 1])
      case None => None
      case Some(init) =>
        if a.latitude.None? || a.longitude.None? then None
        else Some(init + [Coord(a.latitude.value, a.longitude.value)])
  }
}

=== FILE: backend.dfy ===
/**
 * The web service of backend/__init__.py as a state machine. Its state is
 * the in-memory alert frame plus the log of anomaly notifications broadcast
 * so far; each endpoint is a function from that state (and, for ingest, a
 * request body) to a reply and, for ingest only, a successor state. Routing,
 * JSON marshalling and the socket transport are not modelled: a reply is its
 * status and payload, and a broadcast is an entry appended to the log.
 */
module Backend {
  import opened Wrappers
  import opened Timestamps
  import opened Alerts
  import opened Features
  import opened Training
  import opened Predict
  import opened Clustering

  /** An HTTP reply: a JSON payload with status 200, or an error status. */
  datatype Reply<+T> = Ok200(payload: T) | BadRequest400 | NotFound404 | ServerError500

  /** The body {"status": "ok"} of a successful ingest. */
  datatype Ack = StatusOk

  /**
   * The GeoJSON Feature broadcast for an anomalous alert: a Point at the
   * alert's position and exactly three properties.
   */
  datatype AnomalyFeature = AnomalyFeature(geometry: Point, alertId: int, alertType: string, timestamp: string)

  /** One Socket.IO broadcast: the event name and its payload. */
  datatype Emission = Emission(event: string, feature: AnomalyFeature)

  /**
   * The service state: the alert frame, in row order, and every broadcast so
   * far. The first `loaded` rows were read from the CSV at start-up; the rows
   * after them were appended by ingest.
   */
  datatype Service = Service(alerts: seq<Alert>, loaded: nat, emitted: seq<Emission>)

  /** The default row count of the alert listing. */
  const DefaultLimit: int := 100

  /** The default clustering radius in kilometres. */
  const DefaultEpsKm: real := 2.0

  /** The default DBSCAN minimum sample count. */
  const DefaultMinSamples: int := 10

  /** The default KDE bandwidth in kilometres. */
  const DefaultBandwidthKm: real := 1.0

  /** The kilometres per degree of arc the KDE bandwidth conversion divides by. */
  const KmPerDegree: real := 111.0

  /** The service right after start-up: the historical alerts, all read from the CSV, nothing broadcast yet. */
  function Start(history: seq<Alert>): (svc: Service)
    ensures svc.alerts == history && svc.loaded == |history| && |svc.emitted| == 0
  {
    Service(history, |history|, [])
  }

  // ---------------------------------------------------------------------
  // GET /alerts
  // ---------------------------------------------------------------------

  /** The sort key of an alert: its parsed timestamp, or None (NaT) when absent or unparseable. */
  function TimeKey(a: Alert): (k: Option<DateTime>)
    ensures k.Some? ==> a.timestamp.Some? && ParseTimestamp(a.timestamp.value) == Ok(k.value)
  {
    if a.timestamp.Some? && ParseTimestamp(a.timestamp.value).Ok? then Some(ParseTimestamp(a.timestamp.value).value)
    else None
  }

  /**
   * a may come before b in a newest-first listing: a is not earlier than b,
   * and alerts without a time go last (pandas places NaT last in either direction).
   */
  predicate NoOlder(a: Alert, b: Alert) {
    match (TimeKey(a), TimeKey(b))
    case (Some(x), Some(y)) => !Earlier(x, y)
    case (Some(_), None) => true
    case (None, None) => true
    case (None, Some(_)) => false
  }

  predicate NewestFirst(s: seq<Alert>) {
    forall i, j :: 0 <= i < j < |s| ==> NoOlder(s[i], s[j])
  }

  lemma NoOlderTotal(a: Alert, b: Alert)
    ensures NoOlder(a, b) || NoOlder(b, a)
  {
  }

  lemma NoOlderTransitive(a: Alert, b: Alert, c: Alert)
    requires NoOlder(a, b) && NoOlder(b, c)
    ensures NoOlder(a, c)
  {
  }

  /** An alert no older than every alert of a newest-first sequence can head it. */
  lemma PrependNewest(h: Alert, t: seq<Alert>)
    requires NewestFirst(t)
    requires forall x :: x in t ==> NoOlder(h, x)
    ensures NewestFirst([h] + t)
  {
    var r := [h] + t;
    forall i, j | 0 <= i < j < |r|
      ensures NoOlder(r[i], r[j])
    {
      assert r[j] == t[j - 1];
      if i > 0 {
        assert r[i] == t[i - 1];
      }
    }
  }

  /** Inserts a before the first alert it is no older than. */
  function InsertByTime(a: Alert, s: seq<Alert>): (r: seq<Alert>)
    requires NewestFirst(s)
    ensures NewestFirst(r)
    ensures multiset(r) == multiset(s) + multiset{a}
  {
    if |s| == 0 then [a]
    else if NoOlder(a, s[0]) then
      forall x | x in s
        ensures NoOlder(a, x)
      {
        var j :| 0 <= j < |s| && s[j] == x;
        if j > 0 {
          NoOlderTransitive(a, s[0], s[j]);
        }
      }
      PrependNewest(a, s);
      [a] + s
    else
      NoOlderTotal(a, s[0]);
      var rest := InsertByTime(a, s[1..]);
      assert s == [s[0]] + s[1..];
      forall x | x in rest
        ensures NoOlder(s[0], x)
      {
        assert x in multiset(rest);
        if x != a {
          assert x in multiset(s[1..]);
          assert x in s[1..];
        }
      }
      PrependNewest(s[0], rest);
      [s[0]] + rest
  }

  /** A stable newest-first ordering of the alerts. */
  function SortNewestFirst(s: seq<Alert>): (r: seq<Alert>)
    ensures NewestFirst(r)
    ensures multiset(r) == multiset(s)
  {
    if |s| == 0 then []
    else
      assert s == [s[0]] + s[1..];
      InsertByTime(s[0], SortNewestFirst(s[1..]))
  }

  /** pandas' head(n): the first n rows, or all but the last -n rows when n is negative. */
  function Head<T>(s: seq<T>, n: int): (r: seq<T>)
    ensures n >= 0 ==> |r| == Min(n, |s|)
    ensures n < 0 ==> |r| == Max(0, |s| + n)
    ensures r == s[..|r|]
  {
    if n >= 0 then s[..Min(n, |s|)] else s[..Max(0, |s| + n)]
  }

  /** A prefix of a newest-first ordering is no older than anything left out of it. */
  lemma PrefixIsNewest(sorted: seq<Alert>, k: nat)
    requires NewestFirst(sorted) && k <= |sorted|
    ensures NewestFirst(sorted[..k])
    ensures multiset(sorted[..k]) <= multiset(sorted)
    ensures forall a, b :: a in sorted[..k] && b in multiset(sorted) - multiset(sorted[..k]) ==> NoOlder(a, b)
  {
    var top := sorted[..k];
    assert sorted == top + sorted[k..];
    assert multiset(sorted) == multiset(top) + multiset(sorted[k..]);
    forall a, b | a in top && b in multiset(sorted) - multiset(top)
      ensures NoOlder(a, b)
    {
      var i :| 0 <= i < k && top[i] == a;
      assert b in multiset(sorted[k..]);
      assert b in sorted[k..];
      var j :| k <= j < |sorted| && sorted[j] == b;
    }
  }

  /**
   * The listing of a frame whose timestamp column holds one kind of value:
   * the alerts sorted by timestamp, newest first, cut to the limit (100 when
   * the query gives none).
   */
  function ListAlertsParsed(alerts: seq<Alert>, limit: Option<int>): (r: Reply<seq<Alert>>)
    ensures r.Ok200?
    ensures var n := if limit.Some? then limit.value else DefaultLimit;
      && (n >= 0 ==> |r.payload| == Min(n, |alerts|))
      && (n < 0 ==> |r.payload| == Max(0, |alerts| + n))
    ensures NewestFirst(r.payload)
    ensures multiset(r.payload) <= multiset(alerts)
    ensures forall a, b :: a in r.payload && b in multiset(alerts) - multiset(r.payload) ==> NoOlder(a, b)
  {
    var n := if limit.Some? then limit.value else DefaultLimit;
    var sorted := SortNewestFirst(alerts);
    var top := Head(sorted, n);
    PrefixIsNewest(sorted, |top|);
    assert top == sorted[..|top|];
    Ok200(top)
  }

  /**
   * read_csv parses the timestamp column of the CSV into date-times when
   * every cell in it parses; otherwise the column keeps the text.
   */
  predicate StartupTimestampsParsed(svc: Service) {
    forall i :: 0 <= i < svc.loaded && i < |svc.alerts| && svc.alerts[i].timestamp.Some? ==>
      ParseTimestamp(svc.alerts[i].timestamp.value).Ok?
  }

  /**
   * The timestamp column holds a parsed date-time from the CSV next to a
   * JSON string that ingest appended unconverted. Missing cells (NaN) are
   * set aside by the sort and do not count.
   */
  predicate MixedTimestampColumn(svc: Service) {
    && StartupTimestampsParsed(svc)
    && (exists i :: 0 <= i < svc.loaded && i < |svc.alerts| && svc.alerts[i].timestamp.Some?)
    && (exists j :: svc.loaded <= j < |svc.alerts| && svc.alerts[j].timestamp.Some?)
  }

  /**
   * list_alerts as written: sort_values on a column that mixes date-times
   * and strings compares a string with a date-time and raises TypeError, so
   * the request fails with 500; any other frame gets the sorted listing.
   */
  function ListAlerts(svc: Service, limit: Option<int>): (r: Reply<seq<Alert>>)
    ensures r.Ok200? || r.ServerError500?
    ensures r.ServerError500? <==> MixedTimestampColumn(svc)
    ensures r.Ok200? ==>
      && (var n := if limit.Some? then limit.value else DefaultLimit;
          && (n >= 0 ==> |r.payload| == Min(n, |svc.alerts|))
          && (n < 0 ==> |r.payload| == Max(0, |svc.alerts| + n)))
      && NewestFirst(r.payload)
      && multiset(r.payload) <= multiset(svc.alerts)
      && forall a, b :: a in r.payload && b in multiset(svc.alerts) - multiset(r.payload) ==> NoOlder(a, b)
  {
    if MixedTimestampColumn(svc) then ServerError500 else ListAlertsParsed(svc.alerts, limit)
  }

  /** Once the column is mixed, every later ingest leaves it mixed. */
  lemma IngestKeepsColumnMixed(svc: Service, body: Option<Alert>, iso: Detector)
    requires MixedTimestampColumn(svc)
    ensures MixedTimestampColumn(Ingest(svc, body, iso).0)
  {
    var next := Ingest(svc, body, iso).0;
    var i :| 0 <= i < svc.loaded && i < |svc.alerts| && svc.alerts[i].timestamp.Some?;
    var j :| svc.loaded <= j < |svc.alerts| && svc.alerts[j].timestamp.Some?;
    assert next.alerts[i] == svc.alerts[i] && next.alerts[j] == svc.alerts[j];
    forall k | 0 <= k < next.loaded && k < |next.alerts| && next.alerts[k].timestamp.Some?
      ensures ParseTimestamp(next.alerts[k].timestamp.value).Ok?
    {
      assert next.alerts[k] == svc.alerts[k];
    }
  }

  /** Appending a row with a timestamp after start-up rows whose timestamps parsed mixes the column. */
  lemma AppendMixesColumn(svc: Service, next: Service, rec: Alert)
    requires next.alerts == svc.alerts + [rec] && next.loaded == svc.loaded == |svc.alerts|
    requires StartupTimestampsParsed(svc)
    requires exists i :: 0 <= i < |svc.alerts| && svc.alerts[i].timestamp.Some?
    requires rec.timestamp.Some?
    ensures MixedTimestampColumn(next)
  {
    var i :| 0 <= i < |svc.alerts| && svc.alerts[i].timestamp.Some?;
    assert next.alerts[i] == svc.alerts[i];
    assert next.alerts[|svc.alerts|] == rec;
    forall k | 0 <= k < next.loaded && k < |next.alerts| && next.alerts[k].timestamp.Some?
      ensures ParseTimestamp(next.alerts[k].timestamp.value).Ok?
    {
      assert next.alerts[k] == svc.alerts[k];
    }
  }

  /**
   * The first ingest of a record with a timestamp breaks the listing of a
   * start-up frame whose timestamps parsed: /alerts answered 200 before it
   * and answers 500 after it.
   */
  lemma ListingFailsAfterIngest(history: seq<Alert>, rec: Alert, iso: Detector, limit: Option<int>)
    requires forall i :: 0 <= i < |history| && history[i].timestamp.Some? ==>
      ParseTimestamp(history[i].timestamp.value).Ok?
    requires exists i :: 0 <= i < |history| && history[i].timestamp.Some?
    requires rec.timestamp.Some?
    ensures ListAlerts(Start(history), limit).Ok200?
    ensures ListAlerts(Ingest(Start(history), Some(rec), iso).0, limit) == ServerError500
  {
    var svc := Start(history);
    assert !MixedTimestampColumn(svc);
    assert !rec.IsEmpty();
    var next := Ingest(svc, Some(rec), iso).0;
    AppendMixesColumn(svc, next, rec);
  }

  /** After the column becomes mixed, /alerts answers 500 whatever is ingested later. */
  lemma {:induction false} ListingStaysBroken(svc: Service, bodies: seq<Option<Alert>>, iso: Detector, limit: Option<int>)
    requires MixedTimestampColumn(svc)
    ensures MixedTimestampColumn(Replay(svc, bodies, iso))
    ensures ListAlerts(Replay(svc, bodies, iso), limit) == ServerError500
  {
    if |bodies| > 0 {
      ListingStaysBroken(svc, bodies[..|bodies| - 1], iso, limit);
      IngestKeepsColumnMixed(Replay(svc, bodies[..|bodies| - 1], iso), bodies[|bodies| - 1], iso);
    }
  }

  // ---------------------------------------------------------------------
  // GET /alerts/<id>
  // ---------------------------------------------------------------------

  /**
   * get_alert: the first alert in row order whose identifier matches; 404
   * when none does. The route's integer converter matches only unsigned
   * digits, so a negative id never reaches the handler and is a 404 too.
   */
  method GetAlert(svc: Service, id: int) returns (r: Reply<Alert>)
    ensures r.Ok200? || r.NotFound404?
    ensures id < 0 ==> r.NotFound404?
    ensures r.NotFound404? <==> id < 0 || forall i :: 0 <= i < |svc.alerts| ==> svc.alerts[i].alertId != Some(id)
    ensures r.Ok200? ==>
      exists i :: 0 <= i < |svc.alerts| && svc.alerts[i] == r.payload && svc.alerts[i].alertId == Some(id)
        && forall j :: 0 <= j < i ==> svc.alerts[j].alertId != Some(id)
  {
    if id < 0 {
      return NotFound404;
    }
    var i := 0;
    while i < |svc.alerts|
      invariant 0 <= i <= |svc.alerts|
      invariant forall j :: 0 <= j < i ==> svc.alerts[j].alertId != Some(id)
    {
      if svc.alerts[i].alertId == Some(id) {
        return Ok200(svc.alerts[i]);
      }
      i := i + 1;
    }
    return NotFound404;
  }

  // ---------------------------------------------------------------------
  // GET /clusters and GET /kde
  // ---------------------------------------------------------------------

  /** clusters: run_dbscan over the whole frame with the query's or the default parameters. */
  function Clusters(svc: Service, epsKm: Option<real>, minSamples: Option<int>, dbscan: LabelModel)
    : (r: Reply<seq<ClusterFeature>>)
    ensures r.Ok200? || r.ServerError500?
    ensures CoordsOf(svc.alerts).None? ==> r.ServerError500?
    ensures CoordsOf(svc.alerts).Some? ==>
      var run := RunDbscan(CoordsOf(svc.alerts).value,
        if epsKm.Some? then epsKm.value else DefaultEpsKm,
        if minSamples.Some? then minSamples.value else DefaultMinSamples, dbscan);
      (r.Ok200? <==> run.Ok?) && (r.Ok200? ==> r.payload == run.value.1)
  {
    var eps := if epsKm.Some? then epsKm.value else DefaultEpsKm;
    var m := if minSamples.Some? then minSamples.value else DefaultMinSamples;
    match CoordsOf(svc.alerts)
    case None => ServerError500
    case Some(points) =>
      match RunDbscan(points, eps, m, dbscan)
      case Err(_) => ServerError500
      case Ok(result) => Ok200(result.1)
  }

  /**
   * The bandwidth kde hands to the haversine kernel: bw_km / 111. That is
   * the bandwidth in degrees of arc, while the haversine metric measures in
   * radians.
   */
  function KdeBandwidth(bwKm: real): (r: real)
    ensures r * KmPerDegree == bwKm
  {
    bwKm / KmPerDegree
  }

  /** The bandwidth in kilometres as an angle in radians, at 111 km per degree of arc. */
  function BandwidthRadians(bwKm: real): (r: real)
    ensures r * KmPerDegree * 180.0 == bwKm * Pi
  {
    bwKm / KmPerDegree * Pi / 180.0
  }

  /**
   * Read as radians, the bandwidth kde passes is 180/pi times the requested
   * one: a kernel about 57 times wider than bw_km.
   */
  lemma KdeBandwidthIsDegrees(bwKm: real)
    ensures KdeBandwidth(bwKm) * Pi == BandwidthRadians(bwKm) * 180.0
    ensures bwKm > 0.0 ==> KdeBandwidth(bwKm) > 57.0 * BandwidthRadians(bwKm)
  {
    var d := KdeBandwidth(bwKm);
    assert BandwidthRadians(bwKm) == d * Pi / 180.0;
  }

  /**
   * The fitted kernel density evaluated at every fitting point, on radian
   * coordinates with a bandwidth: one density per point, or None when the
   * library rejects its input.
   */
  type DensityModel = f: (seq<Coord>, real) -> Option<seq<real>>
    | forall pts, bw :: f(pts, bw).Some? ==> |f(pts, bw).value| == |pts|
    witness (pts: seq<Coord>, bw: real) => None

  /** The /kde payload: three parallel arrays. */
  datatype DensityMap = DensityMap(lat: seq<real>, lon: seq<real>, density: seq<real>)

  /**
   * The /kde reply when the density is fitted with bandwidth bw: every
   * alert's latitude, longitude and estimated density, in frame order.
   */
  function KdeFit(svc: Service, bw: real, kde: DensityModel): (r: Reply<DensityMap>)
    ensures r.Ok200? || r.ServerError500?
    ensures CoordsOf(svc.alerts).None? ==> r.ServerError500?
    ensures CoordsOf(svc.alerts).Some? ==>
      var fit := kde(RadiansOf(CoordsOf(svc.alerts).value), bw);
      (r.Ok200? <==> fit.Some?) && (r.Ok200? ==> r.payload.density == fit.value)
    ensures r.Ok200? ==>
      && |r.payload.lat| == |svc.alerts| && |r.payload.lon| == |svc.alerts| && |r.payload.density| == |svc.alerts|
      && forall i :: 0 <= i < |svc.alerts| ==>
        Some(r.payload.lat[i]) == svc.alerts[i].latitude && Some(r.payload.lon[i]) == svc.alerts[i].longitude
  {
    match CoordsOf(svc.alerts)
    case None => ServerError500
    case Some(points) =>
      match kde(RadiansOf(points), bw)
      case None => ServerError500
      case Some(density) => Ok200(DensityMap(Lats(points), Lons(points), density))
  }

  /**
   * kde as written: the density is fitted on the radian coordinates with
   * bandwidth bw_km / 111 (1.0 km when the query gives none).
   */
  function Kde(svc: Service, bwKm: Option<real>, kde: DensityModel): (r: Reply<DensityMap>)
    ensures r.Ok200? || r.ServerError500?
    ensures CoordsOf(svc.alerts).None? ==> r.ServerError500?
    ensures CoordsOf(svc.alerts).Some? ==>
      var fit := kde(RadiansOf(CoordsOf(svc.alerts).value),
        KdeBandwidth(if bwKm.Some? then bwKm.value else DefaultBandwidthKm));
      (r.Ok200? <==> fit.Some?) && (r.Ok200? ==> r.payload.density == fit.value)
    ensures r.Ok200? ==>
      && |r.payload.lat| == |svc.alerts| && |r.payload.lon| == |svc.alerts| && |r.payload.density| == |svc.alerts|
      && forall i :: 0 <= i < |svc.alerts| ==>
        Some(r.payload.lat[i]) == svc.alerts[i].latitude && Some(r.payload.lon[i]) == svc.alerts[i].longitude
  {
    KdeFit(svc, KdeBandwidth(if bwKm.Some? then bwKm.value else DefaultBandwidthKm), kde)
  }

  /** kde with the bandwidth converted to radians, as the haversine kernel expects. */
  function KdeCorrected(svc: Service, bwKm: Option<real>, kde: DensityModel): (r: Reply<DensityMap>)
    ensures r.Ok200? || r.ServerError500?
    ensures CoordsOf(svc.alerts).None? ==> r.ServerError500?
    ensures CoordsOf(svc.alerts).Some? ==>
      var fit := kde(RadiansOf(CoordsOf(svc.alerts).value),
        BandwidthRadians(if bwKm.Some? then bwKm.value else DefaultBandwidthKm));
      (r.Ok200? <==> fit.Some?) && (r.Ok200? ==> r.payload.density == fit.value)
    ensures r.Ok200? ==>
      && |r.payload.lat| == |svc.alerts| && |r.payload.lon| == |svc.alerts| && |r.payload.density| == |svc.alerts|
      && forall i :: 0 <= i < |svc.alerts| ==>
        Some(r.payload.lat[i]) == svc.alerts[i].latitude && Some(r.payload.lon[i]) == svc.alerts[i].longitude
  {
    KdeFit(svc, BandwidthRadians(if bwKm.Some? then bwKm.value else DefaultBandwidthKm), kde)
  }

  // ---------------------------------------------------------------------
  // POST /predict and POST /anomaly
  // ---------------------------------------------------------------------

  /** A request body Python treats as false: none at all, or an empty object. */
  predicate EmptyBody(body: Option<Alert>) {
    body.None? || body.value.IsEmpty()
  }

  /** The /predict payload. */
  datatype SeverityPrediction = SeverityPrediction(predictedSeverity: string, riskScore: real)

  /** predict_severity: the label and the risk score of the posted record. */
  function PredictSeverity(body: Option<Alert>, clf: Classifier, reg: Regressor): (r: Reply<SeverityPrediction>)
    ensures EmptyBody(body) <==> r.BadRequest400?
    ensures r.Ok200? || r.BadRequest400? || r.ServerError500?
    ensures r.Ok200? <==> !EmptyBody(body) && Classify(body.value, clf).Ok?
    ensures r.Ok200? ==> r.payload.predictedSeverity in SeverityLabels
    ensures r.Ok200? && 0 <= clf(FeaturesFromRecord(body.value).value) < 4 ==>
      SeverityOrdinal(Some(r.payload.predictedSeverity)) == Some(clf(FeaturesFromRecord(body.value).value))
    ensures r.Ok200? ==>
      FeaturesFromRecord(body.value).Ok? && r.payload.riskScore == reg(FeaturesFromRecord(body.value).value)
    ensures !EmptyBody(body) && FeaturesFromRecord(body.value).Err? ==> r.ServerError500?
  {
    if EmptyBody(body) then BadRequest400
    else
      match (Classify(body.value, clf), RiskScore(body.value, reg))
      case (Ok(severity), Ok(score)) => Ok200(SeverityPrediction(severity, score))
      case _ => ServerError500
  }

  /** predict_anomaly: whether the detector flags the posted record. */
  function PredictAnomaly(body: Option<Alert>, iso: Detector): (r: Reply<bool>)
    ensures EmptyBody(body) <==> r.BadRequest400?
    ensures r.Ok200? <==> !EmptyBody(body) && FeaturesFromRecord(body.value).Ok?
    ensures r.Ok200? ==> (r.payload <==> iso(FeaturesFromRecord(body.value).value) == -1)
    ensures !EmptyBody(body) && FeaturesFromRecord(body.value).Err? ==> r.ServerError500?
  {
    if EmptyBody(body) then BadRequest400
    else
      match IsAnomaly(body.value, iso)
      case Ok(flag) => Ok200(flag)
      case Err(_) => ServerError500
  }

  // ---------------------------------------------------------------------
  // POST /ingest
  // ---------------------------------------------------------------------

  /** The broadcast for an alert flagged as anomalous. */
  function Notice(rec: Alert): (e: Emission)
    requires rec.latitude.Some? && rec.longitude.Some? && rec.timestamp.Some?
    requires rec.alertId.Some? && rec.alertType.Some?
    ensures e.event == "anomaly"
    ensures e.feature.geometry.coordinates == [Round6(rec.longitude.value), Round6(rec.latitude.value)]
    ensures Some(e.feature.alertId) == rec.alertId && Some(e.feature.alertType) == rec.alertType
      && Some(e.feature.timestamp) == rec.timestamp
  {
    Emission("anomaly", AnomalyFeature(GeoPoint(rec.longitude.value, rec.latitude.value),
      rec.alertId.value, rec.alertType.value, rec.timestamp.value))
  }

  /** The detector flags the record and the notification can be built from it. */
  predicate Broadcasts(rec: Alert, iso: Detector) {
    IsAnomaly(rec, iso) == Ok(true) && rec.alertId.Some? && rec.alertType.Some?
  }

  /**
   * ingest_alert: reject an empty body; otherwise append the record first,
   * then run the anomaly check on it and broadcast one notification when it
   * is flagged. Nothing is validated before the append, so a record the
   * check cannot read is stored and the request still fails.
   */
  function Ingest(svc: Service, body: Option<Alert>, iso: Detector): (r: (Service, Reply<Ack>))
    ensures EmptyBody(body) ==> r == (svc, BadRequest400)
    ensures r.1.BadRequest400? <==> EmptyBody(body)
    ensures !EmptyBody(body) ==> r.0.alerts == svc.alerts + [body.value]
    ensures r.0.loaded == svc.loaded
    ensures !EmptyBody(body) && Broadcasts(body.value, iso) ==> r.0.emitted == svc.emitted + [Notice(body.value)]
    ensures !EmptyBody(body) && !Broadcasts(body.value, iso) ==> r.0.emitted == svc.emitted
    ensures r.1.Ok200? <==>
      && !EmptyBody(body) && IsAnomaly(body.value, iso).Ok?
      && (IsAnomaly(body.value, iso).value ==> body.value.alertId.Some? && body.value.alertType.Some?)
    ensures r.1.Ok200? || r.1.BadRequest400? || r.1.ServerError500?
  {
    if EmptyBody(body) then (svc, BadRequest400)
    else
      var rec := body.value;
      var stored := svc.(alerts := svc.alerts + [rec]);
      match IsAnomaly(rec, iso)
      case Err(_) => (stored, ServerError500)
      case Ok(flag) =>
        if !flag then (stored, Ok200(StatusOk))
        else if rec.alertId.None? || rec.alertType.None? then (stored, ServerError500)
        else (stored.(emitted := stored.emitted + [Notice(rec)]), Ok200(StatusOk))
  }

  // ---------------------------------------------------------------------
  // Properties of ingest
  // ---------------------------------------------------------------------

  /** The broadcast e announces one of the alerts, which the detector flags. */
  predicate BackedBy(alerts: seq<Alert>, e: Emission, iso: Detector) {
    exists i :: 0 <= i < |alerts| && Broadcasts(alerts[i], iso) && e == Notice(alerts[i])
  }

  /** Every broadcast so far announces a stored alert that the detector flags. */
  predicate EmissionsBacked(svc: Service, iso: Detector) {
    forall k :: 0 <= k < |svc.emitted| ==> BackedBy(svc.alerts, svc.emitted[k], iso)
  }

  lemma BackedByAppend(alerts: seq<Alert>, rec: Alert, e: Emission, iso: Detector)
    requires BackedBy(alerts, e, iso)
    ensures BackedBy(alerts + [rec], e, iso)
  {
    var i :| 0 <= i < |alerts| && Broadcasts(alerts[i], iso) && e == Notice(alerts[i]);
    assert (alerts + [rec])[i] == alerts[i];
  }

  /** Ingest keeps every broadcast backed by a stored, flagged alert. */
  lemma IngestKeepsEmissionsBacked(svc: Service, body: Option<Alert>, iso: Detector)
    requires EmissionsBacked(svc, iso)
    ensures EmissionsBacked(Ingest(svc, body, iso).0, iso)
  {
    var next := Ingest(svc, body, iso).0;
    if !EmptyBody(body) {
      var rec := body.value;
      assert next.alerts == svc.alerts + [rec];
      forall k | 0 <= k < |next.emitted|
        ensures BackedBy(next.alerts, next.emitted[k], iso)
      {
        if k < |svc.emitted| {
          assert next.emitted[k] == svc.emitted[k];
          BackedByAppend(svc.alerts, rec, svc.emitted[k], iso);
        } else {
          assert Broadcasts(rec, iso);
          assert next.emitted == svc.emitted + [Notice(rec)];
          assert next.alerts[|svc.alerts|] == rec;
        }
      }
      assert EmissionsBacked(next, iso);
    }
  }

  /** The service after a sequence of ingest requests, handled one at a time. */
  function Replay(svc: Service, bodies: seq<Option<Alert>>, iso: Detector): Service {
    if |bodies| == 0 then svc
    else Ingest(Replay(svc, bodies[..|bodies| - 1], iso), bodies[|bodies| - 1], iso).0
  }

  /** The number of non-empty bodies. */
  function Accepted(bodies: seq<Option<Alert>>): nat {
    if |bodies| == 0 then 0
    else Accepted(bodies[..|bodies| - 1]) + (if EmptyBody(bodies[|bodies| - 1]) then 0 else 1)
  }

  /** The number of non-empty bodies whose record is flagged and announceable. */
  function Flagged(bodies: seq<Option<Alert>>, iso: Detector): nat {
    if |bodies| == 0 then 0
    else
      var b := bodies[|bodies| - 1];
      Flagged(bodies[..|bodies| - 1], iso) + (if !EmptyBody(b) && Broadcasts(b.value, iso) then 1 else 0)
  }

  /**
   * After any sequence of ingests the frame has grown by one row per
   * non-empty body, the log by one broadcast per flagged record, earlier
   * rows and broadcasts are untouched, and every broadcast is still backed
   * by a stored alert.
   */
  lemma {:induction false} ReplayAppendsOnly(svc: Service, bodies: seq<Option<Alert>>, iso: Detector)
    requires EmissionsBacked(svc, iso)
    ensures var end := Replay(svc, bodies, iso);
      && |end.alerts| == |svc.alerts| + Accepted(bodies) && end.loaded == svc.loaded
      && end.alerts[..|svc.alerts|] == svc.alerts
      && |end.emitted| == |svc.emitted| + Flagged(bodies, iso)
      && end.emitted[..|svc.emitted|] == svc.emitted
      && EmissionsBacked(end, iso)
  {
    if |bodies| > 0 {
      var init := bodies[..|bodies| - 1];
      ReplayAppendsOnly(svc, init, iso);
      var mid := Replay(svc, init, iso);
      IngestKeepsEmissionsBacked(mid, bodies[|bodies| - 1], iso);
      var end := Replay(svc, bodies, iso);
      assert end.alerts[..|svc.alerts|] == mid.alerts[..|svc.alerts|];
      assert end.emitted[..|svc.emitted|] == mid.emitted[..|svc.emitted|];
    }
  }

  /**
   * A non-empty record without a latitude is still appended before the
   * anomaly check fails on it: the frame grows, nothing is broadcast and the
   * reply is 500.
   */
  lemma RecordWithoutLatitudeIsStored(svc: Service, rec: Alert, iso: Detector)
    requires !rec.IsEmpty() && rec.latitude.None?
    ensures Ingest(svc, Some(rec), iso).0.alerts == svc.alerts + [rec]
    ensures Ingest(svc, Some(rec), iso).0.emitted == svc.emitted
    ensures Ingest(svc, Some(rec), iso).1 == ServerError500
  {
  }

  /** A flagged record with identifier and type yields exactly one broadcast carrying its identifier. */
  lemma FlaggedIngestBroadcastsOnce(svc: Service, rec: Alert, iso: Detector)
    requires !rec.IsEmpty() && Broadcasts(rec, iso)
    ensures |Ingest(svc, Some(rec), iso).0.emitted| == |svc.emitted| + 1
    ensures Some(Ingest(svc, Some(rec), iso).0.emitted[|svc.emitted|].feature.alertId) == rec.alertId
    ensures Ingest(svc, Some(rec), iso).1 == Ok200(StatusOk)
  {
  }
}

=== FILE: clustering.dfy ===
/**
 * Hotspot clustering (ml_services/clustering.py). The DBSCAN neighbourhood
 * search itself is an opaque model that labels every point; this module
 * models what run_dbscan does around it: the radius conversion, and the
 * per-cluster summaries with member count and mean centroid.
 */
module Clustering {
  import opened Wrappers
  import opened Alerts

  /** The mean Earth radius the radius conversion divides by. */
  const KmsPerRadian: real := 6371.0088

  /** The label DBSCAN gives a point that is in no cluster. */
  const Noise: int := -1

  /** The neighbourhood radius in kilometres as an angle in radians for the haversine metric. */
  function EpsRadians(epsKm: real): (r: real)
    ensures r * KmsPerRadian == epsKm
  {
    epsKm / KmsPerRadian
  }

  /**
   * DBSCAN fitted on radian coordinates with a radius and a minimum sample
   * count: one label per point, or None when the library rejects its input.
   */
  type LabelModel = f: (seq<Coord>, real, int) -> Option<seq<int>>
    | forall pts, eps, m :: f(pts, eps, m).Some? ==> |f(pts, eps, m).value| == |pts|
    witness (pts: seq<Coord>, eps: real, m: int) => None

  /** One GeoJSON Feature of the result: the centroid with its cluster id and size. */
  datatype ClusterFeature = ClusterFeature(geometry: Point, clusterId: int, count: nat)

  datatype ClusterError = ModelRejected

  // ---------------------------------------------------------------------
  // Counting and selecting by label
  // ---------------------------------------------------------------------

  /** The number of points carrying label c. */
  function Count(labels: seq<int>, c: int): (n: nat)
    ensures n <= |labels|
    ensures n > 0 <==> c in labels
  {
    if |labels| == 0 then 0
    else
      var init := labels[..|labels| - 1];
      assert c in labels <==> c in init || labels[|labels| - 1] == c;
      Count(init, c) + (if labels[|labels| - 1] == c then 1 else 0)
  }

  /**
   * The row indices carrying label c, ascending: every such row exactly
   * once, and no other row.
   */
  function MemberIndices(labels: seq<int>, c: int): (idx: seq<int>)
    ensures |idx| == Count(labels, c)
    ensures forall k :: 0 <= k < |idx| ==> 0 <= idx[k] < |labels| && labels[idx[k]] == c
    ensures StrictlyIncreasing(idx)
    ensures forall i :: 0 <= i < |labels| && labels[i] == c ==> i in idx
  {
    if |labels| == 0 then []
    else
      var n := |labels| - 1;
      var init := MemberIndices(labels[..n], c);
      IndicesBelow(labels, c, init);
      if labels[n] == c then
        AppendIndex(init, n);
        init + [n]
      else
        init
  }

  /** The indices selected from all rows but the last stay below the last row and keep their labels. */
  lemma IndicesBelow(labels: seq<int>, c: int, init: seq<int>)
    requires |labels| > 0
    requires var n := |labels| - 1;
      && (forall k :: 0 <= k < |init| ==> 0 <= init[k] < n && labels[..n][init[k]] == c)
      && (forall i :: 0 <= i < n && labels[..n][i] == c ==> i in init)
    ensures forall k :: 0 <= k < |init| ==> 0 <= init[k] < |labels| - 1 && labels[init[k]] == c
    ensures forall i :: 0 <= i < |labels| - 1 && labels[i] == c ==> i in init
  {
    var n := |labels| - 1;
    forall i | 0 <= i < n
      ensures labels[..n][i] == labels[i]
    {
    }
  }

  /** Appending an index above every element keeps an index sequence strictly increasing. */
  lemma AppendIndex(init: seq<int>, n: int)
    requires StrictlyIncreasing(init)
    requires forall k :: 0 <= k < |init| ==> init[k] < n
    ensures StrictlyIncreasing(init + [n])
  {
  }

  /**
   * The points carrying label c, in input order: the subset
   * df[df.cluster == c], which takes the point of each row whose label is c,
   * once and in row order.
   */
  function Members(points: seq<Coord>, labels: seq<int>, c: int): (m: seq<Coord>)
    requires |points| == |labels|
    ensures |m| == Count(labels, c) && |m| == |MemberIndices(labels, c)|
    ensures forall k :: 0 <= k < |m| ==> m[k] == points[MemberIndices(labels, c)[k]]
  {
    if |points| == 0 then []
    else
      var n := |points| - 1;
      var init := Members(points[..n], labels[..n], c);
      var m := if labels[n] == c then init + [points[n]] else init;
      MembersStep(points, labels, c, init, m);
      m
  }

  /** The last row extends the members of the other rows exactly when it carries the label. */
  lemma MembersStep(points: seq<Coord>, labels: seq<int>, c: int, init: seq<Coord>, m: seq<Coord>)
    requires |points| == |labels| > 0
    requires var n := |points| - 1;
      && |init| == |MemberIndices(labels[..n], c)|
      && (forall k :: 0 <= k < |init| ==> init[k] == points[..n][MemberIndices(labels[..n], c)[k]])
      && m == if labels[n] == c then init + [points[n]] else init
    ensures |m| == |MemberIndices(labels, c)|
    ensures forall k :: 0 <= k < |m| ==> m[k] == points[MemberIndices(labels, c)[k]]
  {
    var n := |points| - 1;
    var idx := MemberIndices(labels[..n], c);
    MemberIndicesStep(labels, c);
    forall k | 0 <= k < |m|
      ensures m[k] == points[MemberIndices(labels, c)[k]]
    {
      if k < |init| {
        assert idx[k] < n;
        assert MemberIndices(labels, c)[k] == idx[k];
      } else {
        assert MemberIndices(labels, c)[k] == n;
      }
    }
  }

  /** MemberIndices of a non-empty labelling: those of all rows but the last, then the last if it qualifies. */
  lemma MemberIndicesStep(labels: seq<int>, c: int)
    requires |labels| > 0
    ensures var n := |labels| - 1;
      MemberIndices(labels, c) == MemberIndices(labels[..n], c) + (if labels[n] == c then [n] else [])
  {
  }

  function Lats(m: seq<Coord>): (r: seq<real>)
    ensures |r| == |m| && forall i :: 0 <= i < |m| ==> r[i] == m[i].lat
  {
    seq(|m|, i requires 0 <= i < |m| => m[i].lat)
  }

  function Lons(m: seq<Coord>): (r: seq<real>)
    ensures |r| == |m| && forall i :: 0 <= i < |m| ==> r[i] == m[i].lon
  {
    seq(|m|, i requires 0 <= i < |m| => m[i].lon)
  }

  function Sum(xs: seq<real>): real {
    if |xs| == 0 then 0.0 else Sum(xs[..|xs| - 1]) + xs[|xs| - 1]
  }

  /** The arithmetic mean pandas' mean() computes. */
  function Mean(xs: seq<real>): real
    requires |xs| > 0
  {
    Sum(xs) / (|xs| as real)
  }

  /** The smallest value of a non-empty sequence. */
  function Lowest(xs: seq<real>): (lo: real)
    requires |xs| > 0
    ensures lo in xs && forall i :: 0 <= i < |xs| ==> lo <= xs[i]
  {
    if |xs| == 1 then xs[0]
    else
      var rest := Lowest(xs[..|xs| - 1]);
      if xs[|xs| - 1] < rest then xs[|xs| - 1] else rest
  }

  /** The largest value of a non-empty sequence. */
  function Highest(xs: seq<real>): (hi: real)
    requires |xs| > 0
    ensures hi in xs && forall i :: 0 <= i < |xs| ==> xs[i] <= hi
  {
    if |xs| == 1 then xs[0]
    else
      var rest := Highest(xs[..|xs| - 1]);
      if xs[|xs| - 1] > rest then xs[|xs| - 1] else rest
  }

  // ---------------------------------------------------------------------
  // Cluster ids
  // ---------------------------------------------------------------------

  predicate StrictlyIncreasing(s: seq<int>) {
    forall i, j :: 0 <= i < j < |s| ==> s[i] < s[j]
  }

  /** Adds x to a strictly increasing sequence unless it is already there. */
  function InsertSorted(ids: seq<int>, x: int): (r: seq<int>)
    requires StrictlyIncreasing(ids)
    ensures StrictlyIncreasing(r)
    ensures forall c :: c in r <==> c in ids || c == x
  {
    if |ids| == 0 then [x]
    else if x < ids[0] then [x] + ids
    else if x == ids[0] then ids
    else
      var rest := InsertSorted(ids[1..], x);
      assert forall c :: c in ids <==> c == ids[0] || c in ids[1..];
      assert forall c :: c in rest ==> ids[0] < c;
      var r := [ids[0]] + rest;
      forall i, j | 0 <= i < j < |r|
        ensures r[i] < r[j]
      {
        assert r[j] == rest[j - 1] && r[j] in rest;
        if i > 0 {
          assert r[i] == rest[i - 1];
        }
      }
      r
  }

  /** sorted(c for c in set(labels) if c != -1): the distinct non-noise labels, ascending. */
  function ClusterIds(labels: seq<int>): (ids: seq<int>)
    ensures StrictlyIncreasing(ids)
    ensures forall c :: c in ids <==> c in labels && c != Noise
  {
    if |labels| == 0 then []
    else
      var init := labels[..|labels| - 1];
      var last := labels[|labels| - 1];
      assert forall c :: c in labels <==> c in init || c == last;
      var rest := ClusterIds(init);
      if last == Noise then rest else InsertSorted(rest, last)
  }

  // ---------------------------------------------------------------------
  // Summaries
  // ---------------------------------------------------------------------

  /**
   * f summarises one cluster of the labelling: a label other than noise,
   * its member count, and the mean of its members' longitudes and latitudes
   * as a (longitude, latitude) Point, each rounded to six decimals.
   */
  predicate DescribesCluster(points: seq<Coord>, labels: seq<int>, f: ClusterFeature)
    requires |points| == |labels|
  {
    && f.clusterId in labels && f.clusterId != Noise
    && f.count == Count(labels, f.clusterId)
    && var m := Members(points, labels, f.clusterId);
      |m| > 0 && f.geometry == GeoPoint(Mean(Lons(m)), Mean(Lats(m)))
  }

  /** The Feature for cluster c. */
  function Summary(points: seq<Coord>, labels: seq<int>, c: int): (f: ClusterFeature)
    requires |points| == |labels| && c in labels && c != Noise
    ensures f.clusterId == c && DescribesCluster(points, labels, f)
  {
    var m := Members(points, labels, c);
    ClusterFeature(GeoPoint(Mean(Lons(m)), Mean(Lats(m))), c, |m|)
  }

  /** One Feature per cluster id, in ascending id order. */
  function Summarise(points: seq<Coord>, labels: seq<int>): (fc: seq<ClusterFeature>)
    requires |points| == |labels|
    ensures forall k, l :: 0 <= k < l < |fc| ==> fc[k].clusterId < fc[l].clusterId
    ensures forall c :: (exists k :: 0 <= k < |fc| && fc[k].clusterId == c) <==> c in labels && c != Noise
    ensures forall k :: 0 <= k < |fc| ==> DescribesCluster(points, labels, fc[k])
  {
    var ids := ClusterIds(labels);
    var fc := seq(|ids|, k requires 0 <= k < |ids| => Summary(points, labels, ids[k]));
    forall k | 0 <= k < |fc|
      ensures fc[k].clusterId == ids[k] && DescribesCluster(points, labels, fc[k])
    {
      var f := Summary(points, labels, ids[k]);
      assert fc[k] == f;
    }
    forall c | c in ids
      ensures exists k :: 0 <= k < |fc| && fc[k].clusterId == c
    {
      var k :| 0 <= k < |ids| && ids[k] == c;
      assert fc[k].clusterId == c;
    }
    fc
  }

  /**
   * run_dbscan: convert the radius, let DBSCAN label the radian coordinates,
   * and return the labels unchanged together with the cluster summaries.
   */
  function RunDbscan(points: seq<Coord>, epsKm: real, minSamples: int, dbscan: LabelModel)
    : (r: Result<(seq<int>, seq<ClusterFeature>), ClusterError>)
    ensures r.Ok? <==> dbscan(RadiansOf(points), EpsRadians(epsKm), minSamples).Some?
    ensures r.Ok? ==> r.value.0 == dbscan(RadiansOf(points), EpsRadians(epsKm), minSamples).value
    ensures r.Ok? ==> |r.value.0| == |points|
    ensures r.Ok? ==> r.value.1 == Summarise(points, r.value.0)
  {
    match dbscan(RadiansOf(points), EpsRadians(epsKm), minSamples)
    case None => Err(ModelRejected)
    case Some(labels) => Ok((labels, Summarise(points, labels)))
  }

  /** numpy.radians over the coordinate matrix. */
  function RadiansOf(points: seq<Coord>): (r: seq<Coord>)
    ensures |r| == |points| && forall i :: 0 <= i < |points| ==> r[i] == ToRadians(points[i])
  {
    seq(|points|, i requires 0 <= i < |points| => ToRadians(points[i]))
  }

  // ---------------------------------------------------------------------
  // Properties
  // ---------------------------------------------------------------------

  /** The number of points whose label lies in the set s. */
  function CountIn(labels: seq<int>, s: set<int>): nat {
    if |labels| == 0 then 0
    else CountIn(labels[..|labels| - 1], s) + (if labels[|labels| - 1] in s then 1 else 0)
  }

  /** The cluster ids of a list of summaries. */
  function IdSet(fc: seq<ClusterFeature>): (ids: set<int>)
    ensures forall c :: c in ids <==> exists k :: 0 <= k < |fc| && fc[k].clusterId == c
  {
    if |fc| == 0 then {}
    else
      var n := |fc| - 1;
      var rest := IdSet(fc[..n]);
      assert forall k :: 0 <= k < n ==> fc[..n][k] == fc[k];
      rest + {fc[n].clusterId}
  }

  function TotalCount(fc: seq<ClusterFeature>): nat {
    if |fc| == 0 then 0 else TotalCount(fc[..|fc| - 1]) + fc[|fc| - 1].count
  }

  lemma {:induction false} CountInAddOne(labels: seq<int>, s: set<int>, a: int)
    requires a !in s
    ensures CountIn(labels, s + {a}) == CountIn(labels, s) + Count(labels, a)
  {
    if |labels| > 0 {
      CountInAddOne(labels[..|labels| - 1], s, a);
    }
  }

  lemma {:induction false} CountInNothing(labels: seq<int>)
    ensures CountIn(labels, {}) == 0
  {
    if |labels| > 0 {
      CountInNothing(labels[..|labels| - 1]);
    }
  }

  lemma {:induction false} CountInEverything(labels: seq<int>, s: set<int>)
    requires forall i :: 0 <= i < |labels| ==> labels[i] in s
    ensures CountIn(labels, s) == |labels|
  {
    if |labels| > 0 {
      CountInEverything(labels[..|labels| - 1], s);
    }
  }

  /** Summing the counts of distinct cluster ids counts the points whose label is among them. */
  lemma {:induction false} TotalCountIsCountIn(labels: seq<int>, fc: seq<ClusterFeature>)
    requires forall k, l :: 0 <= k < l < |fc| ==> fc[k].clusterId < fc[l].clusterId
    requires forall k :: 0 <= k < |fc| ==> fc[k].count == Count(labels, fc[k].clusterId)
    ensures TotalCount(fc) == CountIn(labels, IdSet(fc))
  {
    if |fc| == 0 {
      CountInNothing(labels);
    } else {
      var n := |fc| - 1;
      var init := fc[..n];
      TotalCountIsCountIn(labels, init);
      var s := IdSet(init);
      assert IdSet(fc) == s + {fc[n].clusterId};
      assert fc[n].clusterId !in s by {
        forall k | 0 <= k < n
          ensures init[k].clusterId != fc[n].clusterId
        {
          assert init[k] == fc[k];
        }
      }
      CountInAddOne(labels, s, fc[n].clusterId);
      assert fc[..n] == init;
      assert TotalCount(init) == CountIn(labels, s);
      assert TotalCount(fc) == TotalCount(init) + fc[n].count;
      assert fc[n].count == Count(labels, fc[n].clusterId);
    }
  }

  /**
   * The summaries partition the input: the member counts of all clusters
   * plus the number of noise points equal the number of points.
   */
  lemma CountsPartitionPoints(points: seq<Coord>, labels: seq<int>)
    requires |points| == |labels|
    ensures TotalCount(Summarise(points, labels)) + Count(labels, Noise) == |labels|
  {
    var fc := Summarise(points, labels);
    var ids := IdSet(fc);
    TotalCountIsCountIn(labels, fc);
    assert Noise !in ids;
    CountInAddOne(labels, ids, Noise);
    EveryLabelCovered(points, labels);
    CountInEverything(labels, ids + {Noise});
  }

  lemma EveryLabelCovered(points: seq<Coord>, labels: seq<int>)
    requires |points| == |labels|
    ensures var fc := Summarise(points, labels);
      forall i :: 0 <= i < |labels| ==> labels[i] in IdSet(fc) + {Noise}
  {
    var fc := Summarise(points, labels);
    forall i | 0 <= i < |labels|
      ensures labels[i] in IdSet(fc) + {Noise}
    {
      if labels[i] != Noise {
        assert labels[i] in labels;
        var k :| 0 <= k < |fc| && fc[k].clusterId == labels[i];
      }
    }
  }

  lemma {:induction false} SumBetween(xs: seq<real>, lo: real, hi: real)
    requires forall i :: 0 <= i < |xs| ==> lo <= xs[i] <= hi
    ensures (|xs| as real) * lo <= Sum(xs) <= (|xs| as real) * hi
  {
    if |xs| > 0 {
      SumBetween(xs[..|xs| - 1], lo, hi);
    }
  }

  lemma DivBetween(a: real, n: real, lo: real, hi: real)
    requires n > 0.0 && n * lo <= a <= n * hi
    ensures lo <= a / n <= hi
  {
  }

  /** The mean of a non-empty sequence lies between its smallest and largest value. */
  lemma MeanBetween(xs: seq<real>)
    requires |xs| > 0
    ensures Lowest(xs) <= Mean(xs) <= Highest(xs)
  {
    var lo, hi := Lowest(xs), Highest(xs);
    MeanWithin(xs, lo, hi);
  }

  lemma MeanWithin(xs: seq<real>, lo: real, hi: real)
    requires |xs| > 0
    requires forall i :: 0 <= i < |xs| ==> lo <= xs[i] <= hi
    ensures lo <= Mean(xs) <= hi
  {
    SumBetween(xs, lo, hi);
    DivBetween(Sum(xs), |xs| as real, lo, hi);
  }

  /**
   * Every centroid is written longitude first, lies within half a millionth
   * of its cluster's mean on each axis, and within the bounding box of its
   * members once the box's corners are rounded like the centroid.
   */
  lemma CentroidWithinMembers(points: seq<Coord>, labels: seq<int>, k: int)
    requires |points| == |labels|
    requires 0 <= k < |Summarise(points, labels)|
    ensures var f := Summarise(points, labels)[k];
      var m := Members(points, labels, f.clusterId);
      && |m| > 0 && |f.geometry.coordinates| == 2
      && Mean(Lons(m)) - 0.5 / Scale <= f.geometry.coordinates[0] <= Mean(Lons(m)) + 0.5 / Scale
      && Mean(Lats(m)) - 0.5 / Scale <= f.geometry.coordinates[1] <= Mean(Lats(m)) + 0.5 / Scale
      && Round6(Lowest(Lons(m))) <= f.geometry.coordinates[0] <= Round6(Highest(Lons(m)))
      && Round6(Lowest(Lats(m))) <= f.geometry.coordinates[1] <= Round6(Highest(Lats(m)))
  {
    var f := Summarise(points, labels)[k];
    assert DescribesCluster(points, labels, f);
    var m := Members(points, labels, f.clusterId);
    MeanBetween(Lons(m));
    MeanBetween(Lats(m));
    Round6Monotone(Lowest(Lons(m)), Mean(Lons(m)));
    Round6Monotone(Mean(Lons(m)), Highest(Lons(m)));
    Round6Monotone(Lowest(Lats(m)), Mean(Lats(m)));
    Round6Monotone(Mean(Lats(m)), Highest(Lats(m)));
  }

  /**
   * Three points labelled 0 and one far outlier labelled noise give exactly
   * one summary, of cluster 0 with three members.
   */
  lemma OneClusterAndAnOutlier(points: seq<Coord>)
    requires |points| == 4
    ensures |Summarise(points, [0, 0, 0, Noise])| == 1
    ensures Summarise(points, [0, 0, 0, Noise])[0].clusterId == 0
    ensures Summarise(points, [0, 0, 0, Noise])[0].count == 3
  {
    var labels := [0, 0, 0, Noise];
    assert labels[..3] == [0, 0, 0] && [0, 0, 0][..2] == [0, 0] && [0, 0][..1] == [0] && [0][..0] == [];
    assert ClusterIds([0]) == [0];
    assert ClusterIds([0, 0]) == [0];
    assert ClusterIds([0, 0, 0]) == [0];
    assert ClusterIds(labels) == [0];
    assert Count([0, 0, 0], 0) == 3;
    assert Count(labels, 0) == 3;
  }
}

=== FILE: features.dfy ===
/**
 * The feature vector the three models consume, and how the inference path
 * derives it from a single record (ml_services/predict.py).
 */
module Features {
  import opened Wrappers
  import opened Timestamps
  import opened Alerts

  /** The model input, in column order hour, month, lat_bin, lon_bin. */
  datatype FeatureVector = FeatureVector(hour: int, month: int, latBin: int, lonBin: int)

  function RealAbs(x: real): real {
    if x >= 0.0 then x else -x
  }

  /**
   * Python's int() of a float: the integer part, truncated toward zero, so
   * that -876.2 becomes -876 and not -877.
   */
  function TruncateToInt(x: real): (n: int)
    ensures x >= 0.0 ==> n >= 0
    ensures x <= 0.0 ==> n <= 0
    ensures RealAbs(n as real) <= RealAbs(x) < RealAbs(n as real) + 1.0
  {
    if x >= 0.0 then x.Floor else -((-x).Floor)
  }

  /**
   * numpy's astype(int) of a float, the C conversion: the floor for values
   * that are whole or non-negative, one above the floor for negative
   * fractions.
   */
  function CastToInt(x: real): (n: int)
    ensures x >= 0.0 ==> n == x.Floor
    ensures x < 0.0 ==> n == -((-x).Floor)
  {
    if x < 0.0 && x.Floor as real != x then x.Floor + 1 else x.Floor
  }

  /** The 0.1-degree bin of a coordinate on the inference path: int(x * 10). */
  function Bin(x: real): (n: int)
    ensures x >= 0.0 ==> n >= 0
    ensures x <= 0.0 ==> n <= 0
    ensures RealAbs(n as real) <= RealAbs(x * 10.0) < RealAbs(n as real) + 1.0
  {
    TruncateToInt(x * 10.0)
  }

  /** Why a record yields no feature vector: a KeyError or a parse error. */
  datatype FeatureError = MissingField(name: string) | BadTimestamp(reason: TimestampError)

  /**
   * features_from_record: parse the timestamp, take its calendar hour and
   * month, and bin latitude and longitude. Fields are read in that order, so
   * the first failure decides the error.
   */
  function FeaturesFromRecord(rec: Alert): (r: Result<FeatureVector, FeatureError>)
    ensures r.Ok? <==>
      && rec.timestamp.Some? && ParseTimestamp(rec.timestamp.value).Ok?
      && rec.latitude.Some? && rec.longitude.Some?
    ensures r.Ok? ==> 0 <= r.value.hour <= 23 && 1 <= r.value.month <= 12
    ensures rec.timestamp.None? ==> r == Err(MissingField("timestamp"))
    ensures rec.timestamp.Some? && ParseTimestamp(rec.timestamp.value).Ok? && rec.latitude.None?
      ==> r == Err(MissingField("latitude"))
  {
    if rec.timestamp.None? then Err(MissingField("timestamp"))
    else
      match ParseTimestamp(rec.timestamp.value)
      case Err(e) => Err(BadTimestamp(e))
      case Ok(ts) =>
        if rec.latitude.None? then Err(MissingField("latitude"))
        else if rec.longitude.None? then Err(MissingField("longitude"))
        else Ok(FeatureVector(ts.hour, ts.month, Bin(rec.latitude.value), Bin(rec.longitude.value)))
  }

  // ---------------------------------------------------------------------
  // Properties
  // ---------------------------------------------------------------------

  /**
   * The three bounds on TruncateToInt pin it down: no other integer has the
   * sign of x and lies within one of it on the side of zero.
   */
  lemma TruncationIsUnique(x: real, m: int)
    requires x >= 0.0 ==> m >= 0
    requires x <= 0.0 ==> m <= 0
    requires RealAbs(m as real) <= RealAbs(x) < RealAbs(m as real) + 1.0
    ensures m == TruncateToInt(x)
  {
    var n := TruncateToInt(x);
    if x >= 0.0 {
      assert m as real <= x < m as real + 1.0;
      assert n as real <= x < n as real + 1.0;
    } else {
      assert -(m as real) <= -x < -(m as real) + 1.0;
      assert -(n as real) <= -x < -(n as real) + 1.0;
    }
  }

  /** The training cast and the inference conversion agree on every float. */
  lemma CastAgreesWithTruncate(x: real)
    ensures CastToInt(x) == TruncateToInt(x)
  {
    var c := CastToInt(x);
    if x < 0.0 && x.Floor as real != x {
      assert x.Floor as real < x < x.Floor as real + 1.0;
    }
    TruncationIsUnique(x, c);
  }

  /** Longitude -87.62 falls in bin -876; latitude 41.9 in bin 419. */
  lemma BinExamples()
    ensures Bin(-87.62) == -876
    ensures Bin(41.9) == 419
    ensures Bin(-0.05) == 0
  {
  }

  /**
   * Only the timestamp, latitude and longitude of a record reach the
   * feature vector: the identifier, the alert type, the severity and any
   * extra field are ignored, and equal inputs give equal features.
   */
  lemma FeaturesIgnoreOtherFields(a: Alert, b: Alert)
    requires a.timestamp == b.timestamp && a.latitude == b.latitude && a.longitude == b.longitude
    ensures FeaturesFromRecord(a) == FeaturesFromRecord(b)
  {
  }
}

=== FILE: predict.dfy ===
/**
 * Single-record inference (ml_services/predict.py). The three trained
 * models are opaque: each is a function from a feature vector to what its
 * predict() returns for a one-row input.
 */
module Predict {
  import opened Wrappers
  import opened Alerts
  import opened Features
  import opened Training

  /** The severity classifier: an ordinal as trained from SeverityOrdinal. */
  type Classifier = FeatureVector -> int

  /** The risk regressor. */
  type Regressor = FeatureVector -> real

  /** The isolation forest: -1 for an outlier, 1 for an inlier. */
  type Detector = FeatureVector -> int

  /** The label list classify indexes with the predicted ordinal. */
  const SeverityLabels: seq<string> := ["Low", "Medium", "High", "Critical"]

  datatype PredictError = InvalidRecord(cause: FeatureError) | LabelIndexOutOfRange(index: int)

  /**
   * Python list indexing of SeverityLabels: indices -4..-1 count from the
   * end, anything outside -4..3 raises IndexError.
   */
  function LabelAt(p: int): (r: Result<string, PredictError>)
    ensures r.Ok? <==> -4 <= p < 4
    ensures r.Ok? ==> r.value in SeverityLabels && SeverityOrdinal(Some(r.value)) == Some(p % 4)
    ensures r.Err? ==> r.error == LabelIndexOutOfRange(p)
  {
    if 0 <= p < 4 then Ok(SeverityLabels[p])
    else if -4 <= p < 0 then Ok(SeverityLabels[p + 4])
    else Err(LabelIndexOutOfRange(p))
  }

  /** classify: the label at the classifier's ordinal for the record's features. */
  function Classify(rec: Alert, clf: Classifier): (r: Result<string, PredictError>)
    ensures FeaturesFromRecord(rec).Err? ==> r == Err(InvalidRecord(FeaturesFromRecord(rec).error))
    ensures r.Ok? ==> r.value in SeverityLabels
    ensures FeaturesFromRecord(rec).Ok? && 0 <= clf(FeaturesFromRecord(rec).value) < 4 ==>
      r.Ok? && SeverityOrdinal(Some(r.value)) == Some(clf(FeaturesFromRecord(rec).value))
  {
    match FeaturesFromRecord(rec)
    case Err(e) => Err(InvalidRecord(e))
    case Ok(x) => LabelAt(clf(x))
  }

  /** risk_score: the regressor's output for the record's features. */
  function RiskScore(rec: Alert, reg: Regressor): (r: Result<real, PredictError>)
    ensures r.Ok? <==> FeaturesFromRecord(rec).Ok?
    ensures r.Ok? ==> r.value == reg(FeaturesFromRecord(rec).value)
  {
    match FeaturesFromRecord(rec)
    case Err(e) => Err(InvalidRecord(e))
    case Ok(x) => Ok(reg(x))
  }

  /** is_anomaly: the detector marks the record's features as an outlier. */
  function IsAnomaly(rec: Alert, iso: Detector): (r: Result<bool, PredictError>)
    ensures r.Ok? <==> FeaturesFromRecord(rec).Ok?
    ensures r.Ok? ==> (r.value <==> iso(FeaturesFromRecord(rec).value) == -1)
  {
    match FeaturesFromRecord(rec)
    case Err(e) => Err(InvalidRecord(e))
    case Ok(x) => Ok(iso(x) == -1)
  }

  // ---------------------------------------------------------------------
  // Properties
  // ---------------------------------------------------------------------

  /**
   * The training map and the inference list are inverse: the map sends the
   * i-th label to i, and only the four labels have an ordinal.
   */
  lemma SeverityCodecInverse()
    ensures |SeverityLabels| == 4
    ensures forall i :: 0 <= i < 4 ==> SeverityOrdinal(Some(SeverityLabels[i])) == Some(i)
    ensures forall s: string :: SeverityOrdinal(Some(s)).Some? ==>
      0 <= SeverityOrdinal(Some(s)).value < 4 && SeverityLabels[SeverityOrdinal(Some(s)).value] == s
  {
  }

  /** The four labels are pairwise distinct, so the codec is a bijection. */
  lemma SeverityLabelsDistinct()
    ensures forall i, j :: 0 <= i < j < |SeverityLabels| ==> SeverityLabels[i] != SeverityLabels[j]
  {
  }

  /**
   * Only timestamp, latitude and longitude influence the three predictions;
   * the identifier, alert type, severity and extra fields are ignored.
   */
  lemma PredictionsIgnoreOtherFields(a: Alert, b: Alert, clf: Classifier, reg: Regressor, iso: Detector)
    requires a.timestamp == b.timestamp && a.latitude == b.latitude && a.longitude == b.longitude
    ensures Classify(a, clf) == Classify(b, clf)
    ensures RiskScore(a, reg) == RiskScore(b, reg)
    ensures IsAnomaly(a, iso) == IsAnomaly(b, iso)
  {
    FeaturesIgnoreOtherFields(a, b);
  }
}

=== FILE: timestamps.dfy ===
/**
 * Timestamps of alert records. Records carry their time as the text
 * "YYYY-MM-DD HH:MM:SS", the layout the alert simulator writes. The inference
 * path parses that text into a calendar date-time; the training path cuts
 * fixed character ranges out of it and converts them with Python's int().
 */
module Timestamps {
  import opened Wrappers

  /** A calendar date-time to whole seconds. */
  datatype DateTime = DateTime(year: int, month: int, day: int, hour: int, minute: int, second: int)

  /** Why a timestamp string did not parse. */
  datatype TimestampError = UnknownFormat | OutOfRange

  predicate IsLeapYear(year: int) {
    year % 4 == 0 && (year % 100 != 0 || year % 400 == 0)
  }

  function DaysInMonth(year: int, month: int): (n: int)
    requires 1 <= month <= 12
    ensures 28 <= n <= 31
  {
    if month == 2 then (if IsLeapYear(year) then 29 else 28)
    else if month == 4 || month == 6 || month == 9 || month == 11 then 30
    else 31
  }

  /** A date-time that exists on the proleptic Gregorian calendar. */
  predicate Valid(dt: DateTime) {
    && 1 <= dt.year <= 9999
    && 1 <= dt.month <= 12
    && 1 <= dt.day <= DaysInMonth(dt.year, dt.month)
    && 0 <= dt.hour <= 23
    && 0 <= dt.minute <= 59
    && 0 <= dt.second <= 59
  }

  /** Strict chronological order: lexicographic on the calendar fields. */
  predicate Earlier(a: DateTime, b: DateTime) {
    if a.year != b.year then a.year < b.year
    else if a.month != b.month then a.month < b.month
    else if a.day != b.day then a.day < b.day
    else if a.hour != b.hour then a.hour < b.hour
    else if a.minute != b.minute then a.minute < b.minute
    else a.second < b.second
  }

  // ---------------------------------------------------------------------
  // Digits
  // ---------------------------------------------------------------------

  predicate IsDigit(c: char) {
    '0' <= c <= '9'
  }

  function DigitValue(c: char): (d: nat)
    requires IsDigit(c)
    ensures d < 10
  {
    (c as int) - ('0' as int)
  }

  function DigitChar(d: nat): (c: char)
    requires d < 10
    ensures IsDigit(c) && DigitValue(c) == d
  {
    (('0' as int) + d) as char
  }

  predicate AllDigits(s: string) {
    forall k :: 0 <= k < |s| ==> IsDigit(s[k])
  }

  /** s[i..i+n] exists and consists of decimal digits. */
  predicate DigitsAt(s: string, i: nat, n: nat) {
    i + n <= |s| && forall k :: i <= k < i + n ==> IsDigit(s[k])
  }

  /** The decimal number written by a string of digits, most significant first. */
  function DecimalValue(s: string): nat
    requires AllDigits(s)
  {
    if |s| == 0 then 0 else 10 * DecimalValue(s[..|s| - 1]) + DigitValue(s[|s| - 1])
  }

  /** The two-digit field at position i, as the date parser reads it. */
  function Field2(s: string, i: nat): (v: nat)
    requires DigitsAt(s, i, 2)
    ensures v < 100
  {
    10 * DigitValue(s[i]) + DigitValue(s[i + 1])
  }

  /** The four-digit field at position i. */
  function Field4(s: string, i: nat): (v: nat)
    requires DigitsAt(s, i, 4)
    ensures v < 10000
  {
    100 * Field2(s, i) + Field2(s, i + 2)
  }

  // ---------------------------------------------------------------------
  // The inference path: parsing into a calendar date-time
  // ---------------------------------------------------------------------

  /** The character layout "YYYY-MM-DD HH:MM:SS" (date and time may also be joined by 'T'). */
  predicate HasLayout(s: string) {
    && |s| == 19
    && DigitsAt(s, 0, 4) && s[4] == '-'
    && DigitsAt(s, 5, 2) && s[7] == '-'
    && DigitsAt(s, 8, 2) && (s[10] == ' ' || s[10] == 'T')
    && DigitsAt(s, 11, 2) && s[13] == ':'
    && DigitsAt(s, 14, 2) && s[16] == ':'
    && DigitsAt(s, 17, 2)
  }

  /** The calendar fields a layout string spells, before range checks. */
  function Fields(s: string): DateTime
    requires HasLayout(s)
  {
    DateTime(Field4(s, 0), Field2(s, 5), Field2(s, 8), Field2(s, 11), Field2(s, 14), Field2(s, 17))
  }

  /**
   * Parsing a record's timestamp into a date-time: the layout must match and
   * the fields must name an existing calendar instant; otherwise parsing raises.
   */
  function ParseTimestamp(s: string): (r: Result<DateTime, TimestampError>)
    ensures r.Ok? ==> HasLayout(s) && Valid(r.value)
    ensures HasLayout(s) && Valid(Fields(s)) ==> r.Ok?
  {
    if !HasLayout(s) then Err(UnknownFormat)
    else if !Valid(Fields(s)) then Err(OutOfRange)
    else Ok(Fields(s))
  }

  // ---------------------------------------------------------------------
  // Writing timestamps, as the alert simulator does
  // ---------------------------------------------------------------------

  function Pad2(n: nat): (s: string)
    requires n < 100
    ensures |s| == 2 && DigitsAt(s, 0, 2) && Field2(s, 0) == n
  {
    var s := [DigitChar(n / 10), DigitChar(n % 10)];
    assert s[0..2] == s;
    s
  }

  function Pad4(n: nat): (s: string)
    requires n < 10000
    ensures |s| == 4 && DigitsAt(s, 0, 4) && Field4(s, 0) == n
  {
    var hi := Pad2(n / 100);
    var lo := Pad2(n % 100);
    var s := hi + lo;
    assert s[0..4] == s;
    assert s[0..2] == hi;
    assert s[2..4] == lo;
    s
  }

  /** A date-time written in the layout "YYYY-MM-DD HH:MM:SS". */
  function FormatTimestamp(dt: DateTime): (s: string)
    requires Valid(dt)
    ensures |s| == 19 && s[10] == ' '
    ensures HasLayout(s) && Fields(s) == dt
  {
    Pad4(dt.year) + "-" + Pad2(dt.month) + "-" + Pad2(dt.day) + " "
      + Pad2(dt.hour) + ":" + Pad2(dt.minute) + ":" + Pad2(dt.second)
  }

  // ---------------------------------------------------------------------
  // The training path: fixed slices converted with Python's int()
  // ---------------------------------------------------------------------

  /** Python's s[i:j] for 0 <= i <= j: bounds beyond the end are clamped. */
  function Slice(s: string, i: nat, j: nat): (r: string)
    requires i <= j
    ensures |r| <= j - i
    ensures j <= |s| ==> r == s[i..j]
  {
    s[Min(i, |s|)..Min(j, |s|)]
  }

  /** The ASCII characters Python's int() strips as whitespace. */
  predicate IsSpace(c: char) {
    (9 <= c as int <= 13) || (28 <= c as int <= 32)
  }

  function StripLeft(s: string): string {
    if |s| > 0 && IsSpace(s[0]) then StripLeft(s[1..]) else s
  }

  function StripRight(s: string): string {
    if |s| > 0 && IsSpace(s[|s| - 1]) then StripRight(s[..|s| - 1]) else s
  }

  /** The unsigned decimal text after an optional sign. */
  function UnsignedPart(t: string): string {
    if |t| > 0 && (t[0] == '+' || t[0] == '-') then t[1..] else t
  }

  /**
   * Python's int() applied to a string: surrounding whitespace, an optional
   * sign and at least one decimal digit; anything else raises (None).
   */
  function PyInt(s: string): (r: Option<int>)
    ensures |s| == 0 ==> r.None?
    ensures |s| > 0 && AllDigits(s) ==> r == Some(DecimalValue(s))
    ensures |s| > 1 && s[0] == '-' && AllDigits(s[1..]) ==> r == Some(-(DecimalValue(s[1..]) as int))
  {
    if |s| > 0 && !IsSpace(s[0]) && !IsSpace(s[|s| - 1]) then
      assert StripLeft(s) == s;
      assert StripRight(s) == s;
      PyIntOf(s)
    else
      PyIntOf(s)
  }

  /** The conversion behind PyInt: strip, take the sign, read the digits. */
  function PyIntOf(s: string): Option<int> {
    var t := StripRight(StripLeft(s));
    var u := UnsignedPart(t);
    if |u| == 0 || !AllDigits(u) then None
    else
      var v: int := DecimalValue(u);
      if t[0] == '-' then Some(-v) else Some(v)
  }

  /** A string of digits alone converts to the number it writes. */
  lemma PyIntOfDigits(s: string)
    requires |s| > 0 && AllDigits(s)
    ensures PyInt(s) == Some(DecimalValue(s))
  {
  }

  /** The training path's hour: characters 11..13 converted with int(). */
  function SlicedHour(ts: string): (r: Option<int>)
    ensures HasLayout(ts) ==> r == Some(Field2(ts, 11))
  {
    if HasLayout(ts) then
      SliceConvertsToField(ts, 11);
      PyInt(Slice(ts, 11, 13))
    else
      PyInt(Slice(ts, 11, 13))
  }

  /** The training path's month: characters 5..7 converted with int(). */
  function SlicedMonth(ts: string): (r: Option<int>)
    ensures HasLayout(ts) ==> r == Some(Field2(ts, 5))
  {
    if HasLayout(ts) then
      SliceConvertsToField(ts, 5);
      PyInt(Slice(ts, 5, 7))
    else
      PyInt(Slice(ts, 5, 7))
  }

  /** int() of a two-digit slice is the field the date parser reads there. */
  lemma SliceConvertsToField(s: string, i: nat)
    requires DigitsAt(s, i, 2)
    ensures PyInt(s[i..i + 2]) == Some(Field2(s, i))
  {
    var t := s[i..i + 2];
    PyIntOfDigits(t);
    assert t[..1][..0] == [];
    assert DecimalValue(t[..1]) == DigitValue(s[i]);
  }

  // ---------------------------------------------------------------------
  // Properties
  // ---------------------------------------------------------------------

  /**
   * Train/infer parity for the time features: whenever the inference parser
   * accepts a timestamp, slicing characters 11..13 and 5..7 gives the same
   * hour and month as the parsed date-time.
   */
  lemma SlicedFieldsAgreeWithParse(s: string)
    requires ParseTimestamp(s).Ok?
    ensures SlicedHour(s) == Some(ParseTimestamp(s).value.hour)
    ensures SlicedMonth(s) == Some(ParseTimestamp(s).value.month)
  {
    SliceConvertsToField(s, 11);
    SliceConvertsToField(s, 5);
  }

  /** Every valid date-time written in the layout reads back unchanged. */
  lemma FormatThenParse(dt: DateTime)
    requires Valid(dt)
    ensures HasLayout(FormatTimestamp(dt))
    ensures ParseTimestamp(FormatTimestamp(dt)) == Ok(dt)
  {
    var s := FormatTimestamp(dt);
    var y, mo, d, h, mi, se := Pad4(dt.year), Pad2(dt.month), Pad2(dt.day), Pad2(dt.hour), Pad2(dt.minute), Pad2(dt.second);
    assert s == y + "-" + mo + "-" + d + " " + h + ":" + mi + ":" + se;
    assert |s| == 19;
    assert forall k :: 0 <= k < 4 ==> s[k] == y[k];
    assert forall k :: 0 <= k < 2 ==>
      s[5 + k] == mo[k] && s[8 + k] == d[k] && s[11 + k] == h[k] && s[14 + k] == mi[k] && s[17 + k] == se[k];
    assert HasLayout(s);
    assert Fields(s) == dt;
  }

  /** Every parseable timestamp with a space separator is the layout of its date-time. */
  lemma ParseThenFormat(s: string)
    requires ParseTimestamp(s).Ok? && s[10] == ' '
    ensures FormatTimestamp(ParseTimestamp(s).value) == s
  {
    var dt := ParseTimestamp(s).value;
    var t := FormatTimestamp(dt);
    FormatThenParse(dt);
    assert Fields(t) == Fields(s);
    assert forall k :: 0 <= k < 19 ==> t[k] == s[k] by {
      forall k | 0 <= k < 19
        ensures t[k] == s[k]
      {
        if k in {0, 1, 2, 3, 5, 6, 8, 9, 11, 12, 14, 15, 17, 18} {
          SameFieldsSameDigits(t, s, k);
        }
      }
    }
  }

  /** Two layout strings spelling the same fields agree on every digit position. */
  lemma SameFieldsSameDigits(t: string, s: string, k: nat)
    requires HasLayout(t) && HasLayout(s) && Fields(t) == Fields(s)
    requires k in {0, 1, 2, 3, 5, 6, 8, 9, 11, 12, 14, 15, 17, 18}
    ensures t[k] == s[k]
  {
    var i := if k < 4 then 0 else if k < 7 then 5 else if k < 10 then 8 else if k < 13 then 11
      else if k < 16 then 14 else 17;
    if k < 4 {
      assert Field4(t, 0) == Field4(s, 0);
      assert Field2(t, 0) == Field2(s, 0) && Field2(t, 2) == Field2(s, 2);
      TwoDigitsDetermined(t, s, 0);
      TwoDigitsDetermined(t, s, 2);
    } else {
      TwoDigitsDetermined(t, s, i);
    }
  }

  lemma TwoDigitsDetermined(t: string, s: string, i: nat)
    requires DigitsAt(t, i, 2) && DigitsAt(s, i, 2) && Field2(t, i) == Field2(s, i)
    ensures t[i] == s[i] && t[i + 1] == s[i + 1]
  {
  }

  /** The timestamp from the test suite yields hour 12 and month 1 on both paths. */
  lemma ExampleTimestamp()
    ensures ParseTimestamp("2025-01-08 12:34:56") == Ok(DateTime(2025, 1, 8, 12, 34, 56))
    ensures SlicedHour("2025-01-08 12:34:56") == Some(12)
    ensures SlicedMonth("2025-01-08 12:34:56") == Some(1)
  {
    var s := "2025-01-08 12:34:56";
    assert HasLayout(s);
    assert Field4(s, 0) == 2025 && Field2(s, 5) == 1 && Field2(s, 8) == 8;
    assert Field2(s, 11) == 12 && Field2(s, 14) == 34 && Field2(s, 17) == 56;
    assert Fields(s) == DateTime(2025, 1, 8, 12, 34, 56);
    SlicedFieldsAgreeWithParse(s);
  }

  /**
   * The training path checks no ranges: a month of 13 is rejected by the
   * parser but sliced to 13 for training.
   */
  lemma SlicingDoesNotValidate()
    ensures ParseTimestamp("2025-13-08 12:00:00") == Err(OutOfRange)
    ensures SlicedMonth("2025-13-08 12:00:00") == Some(13)
  {
    var s := "2025-13-08 12:00:00";
    assert HasLayout(s);
    SliceConvertsToField(s, 5);
  }
}

=== FILE: training.dfy ===
/**
 * The training-side feature engineering of ml_services/train_models.py:
 * the same four columns built a whole column at a time from string slices
 * and numpy casts, plus the severity labels as ordinals.
 */
module Training {
  import opened Wrappers
  import opened Timestamps
  import opened Alerts
  import opened Features

  /**
   * The severity map {"Low": 0, "Medium": 1, "High": 2, "Critical": 3};
   * pandas' Series.map turns any other value, or a missing one, into NaN (None).
   */
  function SeverityOrdinal(severity: Option<string>): (r: Option<int>)
    ensures r.Some? <==> severity.Some? && severity.value in {"Low", "Medium", "High", "Critical"}
    ensures r.Some? ==> 0 <= r.value < 4
  {
    match severity
    case None => None
    case Some(s) =>
      if s == "Low" then Some(0)
      else if s == "Medium" then Some(1)
      else if s == "High" then Some(2)
      else if s == "Critical" then Some(3)
      else None
  }

  /** Applies f to every element; None as soon as one element gives None. */
  function MapAll<T, U>(xs: seq<T>, f: T -> Option<U>): (r: Option<seq<U>>)
    ensures r.Some? <==> forall i :: 0 <= i < |xs| ==> f(xs[i]).Some?
    ensures r.Some? ==> |r.value| == |xs| && forall i :: 0 <= i < |xs| ==> Some(r.value[i]) == f(xs[i])
  {
    if |xs| == 0 then Some([])
    else
      match MapAll(xs[..|xs| - 1], f)
      case None => None
      case Some(init) =>
        match f(xs[|xs| - 1])
        case None => None
        case Some(last) => Some(init + [last])
  }

  /** The hour cell: timestamp characters 11..13 through astype(int); NaN does not convert. */
  function HourCell(rec: Alert): Option<int> {
    if rec.timestamp.None? then None else SlicedHour(rec.timestamp.value)
  }

  /** The month cell: timestamp characters 5..7 through astype(int). */
  function MonthCell(rec: Alert): Option<int> {
    if rec.timestamp.None? then None else SlicedMonth(rec.timestamp.value)
  }

  /** The lat_bin cell: (latitude * 10).astype(int). */
  function LatBinCell(rec: Alert): Option<int> {
    if rec.latitude.None? then None else Some(CastToInt(rec.latitude.value * 10.0))
  }

  /** The lon_bin cell: (longitude * 10).astype(int). */
  function LonBinCell(rec: Alert): Option<int> {
    if rec.longitude.None? then None else Some(CastToInt(rec.longitude.value * 10.0))
  }

  /** One training row on its own, as a reference for the column-wise computation. */
  function TrainingRow(rec: Alert): Option<FeatureVector> {
    match (HourCell(rec), MonthCell(rec), LatBinCell(rec), LonBinCell(rec))
    case (Some(h), Some(m), Some(la), Some(lo)) => Some(FeatureVector(h, m, la, lo))
    case _ => None
  }

  /** A column's conversion to int raised. */
  datatype TrainingError = CannotConvert(column: string)

  function Column(rows: seq<Alert>, cell: Alert -> Option<int>, name: string): (r: Result<seq<int>, TrainingError>)
    ensures r.Ok? <==> forall i :: 0 <= i < |rows| ==> cell(rows[i]).Some?
    ensures r.Ok? ==> |r.value| == |rows| && forall i :: 0 <= i < |rows| ==> Some(r.value[i]) == cell(rows[i])
    ensures r.Err? ==> r.error == CannotConvert(name)
  {
    match MapAll(rows, cell)
    case None => Err(CannotConvert(name))
    case Some(col) => Ok(col)
  }

  /**
   * make_features: the hour, month, lat_bin and lon_bin columns in that
   * order (the first column that fails to convert raises), the feature
   * matrix X with one row per input row, and the label vector y.
   */
  function MakeFeatures(rows: seq<Alert>): (r: Result<(seq<FeatureVector>, seq<Option<int>>), TrainingError>)
    ensures r.Ok? <==> forall i :: 0 <= i < |rows| ==> TrainingRow(rows[i]).Some?
    ensures r.Ok? ==> |r.value.0| == |rows| && |r.value.1| == |rows|
    ensures r.Ok? ==> forall i :: 0 <= i < |rows| ==> Some(r.value.0[i]) == TrainingRow(rows[i])
    ensures r.Ok? ==> forall i :: 0 <= i < |rows| ==> r.value.1[i] == SeverityOrdinal(rows[i].severity)
    ensures r.Err? && (exists i :: 0 <= i < |rows| && HourCell(rows[i]).None?) ==> r.error == CannotConvert("hour")
  {
    var hours :- Column(rows, HourCell, "hour");
    var months :- Column(rows, MonthCell, "month");
    var lats :- Column(rows, LatBinCell, "lat_bin");
    var lons :- Column(rows, LonBinCell, "lon_bin");
    var x := seq(|rows|, i requires 0 <= i < |rows| => FeatureVector(hours[i], months[i], lats[i], lons[i]));
    var y := seq(|rows|, i requires 0 <= i < |rows| => SeverityOrdinal(rows[i].severity));
    Ok((x, y))
  }

  // ---------------------------------------------------------------------
  // Properties
  // ---------------------------------------------------------------------

  /**
   * Train/infer parity for one record: whenever the inference path derives
   * a feature vector, the training path derives the same one.
   */
  lemma RowParity(rec: Alert)
    requires FeaturesFromRecord(rec).Ok?
    ensures TrainingRow(rec) == Some(FeaturesFromRecord(rec).value)
  {
    SlicedFieldsAgreeWithParse(rec.timestamp.value);
    CastAgreesWithTruncate(rec.latitude.value * 10.0);
    CastAgreesWithTruncate(rec.longitude.value * 10.0);
  }

  /**
   * Train/infer parity for a whole frame: if every row is a record the
   * inference path accepts, make_features succeeds and its i-th row is the
   * feature vector features_from_record gives for row i.
   */
  lemma {:induction false} TrainInferParity(rows: seq<Alert>)
    requires forall i :: 0 <= i < |rows| ==> FeaturesFromRecord(rows[i]).Ok?
    ensures MakeFeatures(rows).Ok?
    ensures forall i :: 0 <= i < |rows| ==> MakeFeatures(rows).value.0[i] == FeaturesFromRecord(rows[i]).value
  {
    forall i | 0 <= i < |rows|
      ensures TrainingRow(rows[i]) == Some(FeaturesFromRecord(rows[i]).value)
    {
      RowParity(rows[i]);
    }
  }

  /** A record written by the simulator gives the same features on both paths. */
  lemma SimulatedRecordParity(dt: DateTime, lat: real, lon: real, rec: Alert)
    requires Valid(dt)
    requires rec.timestamp == Some(FormatTimestamp(dt)) && rec.latitude == Some(lat) && rec.longitude == Some(lon)
    ensures FeaturesFromRecord(rec) == Ok(FeatureVector(dt.hour, dt.month, Bin(lat), Bin(lon)))
    ensures TrainingRow(rec) == Some(FeatureVector(dt.hour, dt.month, Bin(lat), Bin(lon)))
  {
    FormatThenParse(dt);
    RowParity(rec);
  }
}

=== FILE: wrappers.dfy ===
/**
 * Option models a JSON key or CSV cell that may be missing; Result models a
 * Python call that either returns or raises, and supports `:-` so that a
 * raise inside a chain of conversions ends the chain.
 */
module Wrappers {

  /** A value that may be absent: a missing JSON key, a NaN cell. */
  datatype Option<+T> = None | Some(value: T)

  /** The outcome of an operation that can raise. */
  datatype Result<+T, +E> = Ok(value: T) | Err(error: E) {

    predicate IsFailure() {
      Err?
    }

    function PropagateFailure<U>(): Result<U, E>
      requires Err?
    {
      Err(error)
    }

    function Extract(): T
      requires Ok?
    {
      value
    }
  }

  function Min(a: int, b: int): int {
    if a <= b then a else b
  }

  function Max(a: int, b: int): int {
    if a >= b then a else b
  }
}
